=== FILE: README.md ===
# Material-parameter resolution, modelled in Dafny

This project models the material subsystem of the Wake rendering engine
(`src/material.cpp`). That code decides, for every draw, which stored values
reach which shader uniforms. The model covers these parts:

- `MaterialParameter`, a tagged value (Null, Int, UInt, Float, Vec2, Vec3,
  Vec4, Mat4) with its upload dispatch `setUniform`.
- `Material`, which holds a type name, an optional shader, a name-keyed map of
  texture bindings, a name-keyed map of parameters, and the
  `needsUniformUpdates` dirty flag. It comes with its constructors, assignment
  and mutators, and with the gap-filling merge `copyFrom`.
- `use()`, the per-draw activation. It binds the shader and gives textures
  sequential texture units. It then applies the global material's parameters
  through the name-keyed global uniform cache, except where a local parameter
  of the same name shadows them. Last, it applies the local parameters and
  clears the dirty flag.

Everything that reaches the GPU is an event of a trace (`Gpu.Event`):
`BindShader`, `Resolve(name)` (a `getUniform` lookup), `BindTex(texture, unit)`
and `Upload(location, call)`. The typed call can be `set1i`, `set1ui`, `set1f`,
`setVec2/3/4` or `setMatrix4`. A shader is its identity plus the locations of
its active uniforms, and `GetUniform` returns the error handle for any other
name. A default-constructed `Uniform` is the error handle.

`std::map` is modelled by `OrderedMap.Table`: a sequence of (name, value)
entries whose names strictly ascend under `std::string`'s lexicographic order.
Walking the sequence from front to back is therefore the map's iteration
order, and texture units are numbered deterministically.

The global material is a process-wide static (`src/material.cpp:48`). The
global uniform cache `globalCache` is a map from names to handles
(`src/material.cpp:301-310`). Its declaration is in `material.h`, which is not
part of this model, so whether it is static or a per-material member is not
shown. `Activation.Use` takes both as explicit arguments and returns the new
cache, which covers either reading. It returns
a `Frame`: the material after the call, the new global cache, and the calls
issued.

Files:

- `wrappers.dfy`: the `Option` type.
- `ordered_map.dfy`: the model of `std::map`.
- `gpu.dfy`: handles, shaders, textures and events.
- `parameter.dfy`: `MaterialParameter` and `setUniform`.
- `material.dfy`: `Material`, its mutators, `copyFrom` and `setTempParameter`.
- `activation.dfy`: `use()`.
- `cached_activation.dfy`: the handle-caching finding.

Two behaviours of the code that a reader might not expect are modelled as
written:

- `copyFrom` copies the whole parameter, including its cached handle
  (`src/material.cpp:257`). Only textures get a fresh binding.
- The texture loop and the local-parameter loop of `use()` iterate over copies
  of the map entries (`src/material.cpp:270`, `:316`). The handles they look up
  (`:279`, `:323`) are therefore never stored back into the material. The
  dirty-flag tests at `:277` and `:321` only skip a lookup for a stored handle
  that is valid, and as written no stored handle ever becomes valid (see
  Findings).

## Model

| member | source | states |
|---|---|---|
| Parameters.SetUniform | src/material.cpp:7-46 | an error handle or the Null kind uploads nothing; otherwise exactly one upload at the handle's location, whose call delivers the stored value itself |
| Parameters.CallRoundTrip | src/material.cpp:12-45 | each kind is dispatched to its own typed call: the call chosen for a value delivers that value, and every call is the one chosen for what it delivers |
| Materials.NewMaterial | src/material.cpp:55-59 | a new material has no shader, no textures and no parameters, and is marked for update |
| Materials.CopyOf | src/material.cpp:61-68 | the copy has every field of the original and is marked for update |
| Materials.Assign | src/material.cpp:74-82 | assignment equals copy construction from the right-hand side: nothing of the old state survives, and the result is marked for update |
| Materials.SetTypeName | src/material.cpp:89-92 | only the type name changes |
| Materials.SetShader | src/material.cpp:94-98 | the shader is replaced, possibly by null; the material is marked for update; the maps are kept |
| Materials.SetTexture | src/material.cpp:105-110 | the name gets a fresh binding with an error handle; every other name looks up as before; the dirty flag is untouched |
| Materials.RemoveTexture | src/material.cpp:112-115 | the name is gone and every other name is kept; removing an absent name leaves the material unchanged |
| Materials.GetTexture | src/material.cpp:117-124 | yields the texture stored under the name, and null for an absent name |
| Materials.SetParameter | src/material.cpp:136-190 | every overload stores its value, with a fresh error handle, under the name; other names are unaffected |
| Materials.RemoveParameter | src/material.cpp:213-216 | the name is gone and the others are kept; removing an absent name is a no-op |
| Materials.GetParameter | src/material.cpp:218-224 | yields the stored parameter, or the Null sentinel (Null kind, error handle) for an absent name |
| Materials.GetParameterAfterUpdate | src/material.cpp:136-224 | lookup after set yields the set value; lookup after remove, or in a new material, yields the sentinel; other names are unaffected |
| Materials.SetTempParameter | src/material.cpp:192-211 | with no shader, nothing happens; at most one lookup, first, then at most one upload of the value, and nothing is stored; when the handle stored for the name (per getParameter) is valid, the value is uploaded through it with no lookup; when it is an error handle or the name is absent, the name is looked up and the value uploaded through the result |
| Materials.ResetUniformCache | src/material.cpp:333-336 | only the dirty flag changes, and it becomes true |
| Materials.DirtyFlagLifecycle | src/material.cpp:55-336 | constructors, assignment, setShader and resetUniformCache raise the flag; setTexture, setParameter, the removals, copyFrom and setTypeName leave it as it was |
| Materials.CopyTextures | src/material.cpp:243-250 | the merged texture names are the union of both sides; when this side's handles are all error handles, so are the merged ones, since added bindings are fresh |
| Materials.CopyTexturesFills | src/material.cpp:243-250 | a name gets the other side's texture in a fresh binding exactly when this side holds no texture under it and the other side has the name; every other binding is kept |
| Materials.CopyParameters | src/material.cpp:252-259 | the merged parameter names are the union of both sides; error handles on both sides stay error handles |
| Materials.CopyParametersFills | src/material.cpp:252-259 | a name takes the other side's whole parameter, cached handle included, exactly when this side's is of the Null kind and the other side has the name; otherwise this side's entry is kept |
| Materials.CopyFrom | src/material.cpp:236-260 | the other shader is adopted only when this one is null; for every name, the texture binding is the other side's texture in a fresh binding exactly when getTexture yields null here and the other side has the name, and this side's binding otherwise; the parameter is the other side's whole parameter exactly when this side's kind is Null and the other side has the name, and this side's otherwise; the dirty flag and type name are kept |
| Materials.CopyFromKeepsExisting | src/material.cpp:236-260 | merging {P1 = 9, P2 = 2} into {P1 = 5} gives P1 = 5 and P2 = 2 |
| Activation.TexturePassEvents | src/material.cpp:269-289 | the texture loop only looks up, binds and uploads, and it looks up only bindings that hold a texture and whose handles are stale (dirty flag set, or an error handle) |
| Activation.TextureStepBinds | src/material.cpp:273-288 | one pass of the loop binds at most its own texture, at the current unit, and only if the texture is non-null and the name resolves |
| Activation.TextureUnitsSequential | src/material.cpp:269-289 | units are handed out consecutively from the starting unit, in key order, to exactly the bound textures; a null texture or an unresolved name consumes no unit |
| Activation.TexturePass | src/material.cpp:269-289 | in total the loop issues at most three calls (lookup, bind, upload) per texture binding |
| Activation.TexturePassLooksUpOnce | src/material.cpp:269-289 | the texture loop looks each name up at most once |
| Activation.TexturePassUploadsUnits | src/material.cpp:282-288 | each texture bind at unit k is followed at once by the upload of k to the sampler handle of the texture bound there (the k-th sampler location in key order); every upload of the loop directly follows a bind |
| Activation.TexturePassUploadsAt | src/material.cpp:282-288 | every upload of the texture loop is that of some unit to the sampler location of the texture bound at that unit |
| Activation.TexturePassLooksUpFirst | src/material.cpp:273-286 | a binding's texture is bound only if the binding holds it and its handle resolves, and when that handle was stale (dirty flag, or an error handle) the lookup of the binding's name is the call right before the bind |
| Activation.TexturePassResolvesStale | src/material.cpp:274-280 | every binding that holds a texture and has a stale handle is looked up again |
| Activation.GlobalPass | src/material.cpp:291-314 | the cache only grows and keeps old entries; new entries are valid handles of unshadowed global names; every unshadowed name ends up cached or unresolvable; lookups occur only for unshadowed names not already cached |
| Activation.LocalShadowsGlobal | src/material.cpp:296-298 | the global loop behaves as if the global entries named by local parameters were absent |
| Activation.GlobalFallback | src/material.cpp:300-313 | an unshadowed global value whose handle (cached, otherwise resolved now) is valid is uploaded at that handle's location |
| Activation.GlobalPassSettled | src/material.cpp:300-311 | over a cache holding every resolvable unshadowed name, the loop adds nothing and looks up only names that do not resolve |
| Activation.GlobalPassUploads | src/material.cpp:291-313 | conversely, the global loop uploads nothing but unshadowed, non-Null global values, each through its valid handle (cached, otherwise resolved) |
| Activation.LocalPass | src/material.cpp:316-328 | in total the loop issues at most two calls (lookup, upload) per local parameter, and, when the material is dirty, at least as many calls as there are parameters |
| Activation.LocalPassLooksUpOnce | src/material.cpp:316-328 | the local loop looks each name up at most once |
| Activation.LocalPassUploads | src/material.cpp:316-328 | every non-Null local value whose handle (the stored one, or the one looked up when stale) is valid is uploaded through it; and every upload of the loop is such an upload |
| Activation.LocalPassLooksUpFirst | src/material.cpp:316-327 | every upload of the local loop is a local value through the handle the loop holds for it, and when that handle was stale the lookup of the parameter's name is the call right before the upload |
| Activation.LocalPassEvents | src/material.cpp:316-328 | the local loop only looks up and uploads, and it looks up only parameters whose handles are stale |
| Activation.LocalPassResolvesStale | src/material.cpp:321-324 | every local parameter with a stale handle is looked up again |
| Activation.Use | src/material.cpp:262-331 | textures, parameters (handles included), shader and type name are never changed; with no shader the frame is the unchanged material, the unchanged cache and no calls; with a shader the dirty flag is cleared and the first call binds the shader |
| Activation.UseGrowsGlobalCache | src/material.cpp:300-307 | across a frame the global cache only grows, keeps old entries, and gains only valid handles of unshadowed global names; a material whose handles are all error handles keeps them |
| Activation.UseBindsTexturesInKeyOrder | src/material.cpp:269-289 | in a frame, the texture binds are exactly the bound textures in key order, at units 0, 1, 2, ... |
| Activation.UseUploadsTextureUnits | src/material.cpp:282-288 | in a frame, every texture bind at unit k is immediately followed by the upload of k to the k-th sampler location |
| Activation.UseUploadsLocal | src/material.cpp:316-327 | a non-Null local value whose handle is looked up afresh (dirty material, or error handle) and resolves is uploaded in the frame at the shader's location for its name |
| Activation.UseBindsTexturesFirst | src/material.cpp:262-331 | textures come first: any upload that precedes a texture-unit binding of the frame directly follows a binding, so global and local values are uploaded only after the last texture is bound |
| Activation.UseGlobalsBeforeLocals | src/material.cpp:262-328 | globals before locals: a frame splits at one point into the shader bind, texture-loop calls and global-loop calls (lookups of unshadowed global names, global uploads), followed only by local-loop calls (lookups of local names, local uploads) |
| Activation.GlobalThenLocalAtSharedLocation | src/material.cpp:291-328 | a global handle cached under an earlier shader that lands on a local parameter's location: the frame uploads the global value there first and the local value last, so the location keeps the local value |
| Activation.UseUploads | src/material.cpp:269-328 | every upload of a frame is a texture unit to its sampler location, an unshadowed global value through its handle, or a local value through its valid handle; nothing else is uploaded |
| Activation.UseShadowsGlobals | src/material.cpp:291-298 | a frame is identical to one whose global material lacks every name the material holds, so local always shadows global |
| Activation.UseFallsBackToGlobal | src/material.cpp:291-314 | a global value under a name the material lacks is uploaded whenever its handle is valid |
| Activation.DirtyUseResolvesEverything | src/material.cpp:269-328 | a dirty material looks up every local parameter, and every binding that holds a texture, again |
| Activation.NewShaderResolvesEverything | src/material.cpp:94-98 | the frame after setShader looks up every local parameter, and every binding that holds a texture, in the new shader, and uploads each non-Null local value the new shader resolves at its new location |
| Activation.GlobalCacheSettles | src/material.cpp:300-311 | a second frame of the same material leaves the global cache as the first frame left it |
| Activation.MiddleTextureAbsent | src/material.cpp:269-289 | of three textures whose middle name the shader lacks, the first and third get units 0 and 1 |
| Activation.GlobalCacheIgnoresShader | src/material.cpp:300-311 | the cache is keyed by name only: after a shader with P at 3 primes it, a shader with P at 7 gets P's global value at 3, with no lookup |
| CachedActivation.UseReResolvesEveryFrame | src/material.cpp:269-324 | as written, a material whose handles are all error handles looks up every local parameter, and every binding that holds a texture, in every frame, whatever the dirty flag |
| CachedActivation.SecondFrameResolvesAgain | src/material.cpp:316-330 | as written, the clean second frame of an unchanged material looks up "P" again, although "P" resolved in the first frame |
| CachedActivation.UseCaching | src/material.cpp:262-331 | the corrected use() issues the same calls and builds the same global cache as use(); it keeps shader, type name, parameter names and values, texture names and textures, and clears the dirty flag; each stored handle is exactly the one the frame looked up or reused for that name (for a parameter, and for a binding holding a texture; a binding without a texture keeps its handle), so it is an error handle only where the name does not resolve |
| CachedActivation.TexturePassReplay | src/material.cpp:269-289 | corrected: over the bindings with their handles written back, a clean texture loop binds and uploads exactly what the writing loop did, in order |
| CachedActivation.LocalPassReplay | src/material.cpp:316-328 | corrected: over the parameters with their handles written back, a clean local loop uploads exactly what the writing loop did, in order |
| CachedActivation.GlobalPassReplay | src/material.cpp:291-313 | run again over the cache it left, the global loop uploads exactly what it uploaded the first time, in order |
| CachedActivation.CachedSecondFrameEffects | src/material.cpp:262-331 | corrected: the second frame's texture binds and uploads equal the first frame's, in order |
| CachedActivation.CachedSecondFrameSettles | src/material.cpp:262-331 | corrected: the second frame leaves the material and the cache unchanged, looks up only names that do not resolve, and binds and uploads exactly what the first frame did, in order |
| CachedActivation.CachedSecondFrameSkipsLookup | src/material.cpp:316-330 | corrected: the second frame of the example does not look up "P" |

## Findings

| source | as written | input that shows it | evidently intended | confidence | as-written member | corrected member |
|---|---|---|---|---|---|---|
| src/material.cpp:270-328 | `for (auto entry : textures)` and `for (auto entry : parameters)` copy each entry, so the handle re-resolved at :279 and :323 lands in the copy and is dropped; every stored handle stays an error handle, and every frame looks up every local parameter, and every binding that holds a texture, again | a material with shader {P at 0} and Int parameter P, used twice: the second frame is clean but looks up P again | the handle is written back into the material, so a clean frame reuses valid handles, as the dirty-flag check at :277 and :321 presupposes | medium, not executed | CachedActivation.SecondFrameResolvesAgain | CachedActivation.CachedSecondFrameSettles |

`Activation.Use` models the engine as written, and the rest of the model is
built on it. `CachedActivation.UseCaching` is the corrected definition. Its
first frame issues exactly the same calls as `use()`.
`CachedActivation.CachedSecondFrameSettles` proves the intended property for
it. The global cache is keyed by name alone, whichever shader is bound
(`Activation.GlobalCacheIgnoresShader`). Nothing in the source shows whether
that sharing across shaders is meant, so it is stated as a property and not
as a finding.

## Left out

- GPU behaviour: `shader->use()`, `getUniform`, `texture->activate` and the
  uniform setters are trace events, and a shader is a fixed map from active
  uniform names to locations.
- Payload arithmetic: Int and UInt payloads are unbounded integers, and float,
  vector and matrix payloads are opaque 32-bit patterns. Nothing computes with
  them.
- `Activation.TexturePass`: the texture unit is a natural number. The
  `uint32` wrap-around after 2^32 textures is not modelled.
- The plain accessors `getTypeName`, `getShader`, `getTextures`,
  `getTextureCount`, `getParameters` and `getParameterCount` are field reads of
  the `Material` datatype (`m.textures`, `|m.parameters|`) and have no member
  of their own.
- `getGlobalMaterial` and the static `globalMaterial`, including its
  initialisation timing: the global material is an explicit argument of `use()`.
- `shared_ptr` reference counting, object identity of textures and shaders
  beyond an id, and thread safety.
- The seven `setParameter` overloads are one function. Its value type
  `SetValue` excludes the Null kind, because no overload stores it.
- Name order is Dafny's character-code order. For names encoded as UTF-8,
  this agrees with `std::string`'s byte comparison.
- `src/bindings/luamesh.cpp`, `src/main.cpp` and `include/model.h` are not
  part of this model: they hold Lua marshalling, start-up code and
  declarations only.

=== FILE: activation.dfy ===
/** Material::use(), the per-draw activation: bind the shader, bind the
    textures to sequential units, apply the global material's parameters
    through the global uniform cache unless a local parameter of the
    same name shadows them, apply the local parameters, clear the dirty flag.
    The global material and the global uniform cache are passed in and the
    new cache is handed back; every GPU call is an event of the trace. */
module Activation {
  import opened Wrappers
  import opened OrderedMap
  import opened Gpu
  import opened Parameters
  import opened Materials

  /** What one call of use() leaves behind. */
  datatype Frame = Frame(material: Material, globalCache: map<string, Uniform>, events: seq<Event>)

  /** An entry's handle is looked up again when the material is dirty or the
      handle the loop holds is an error handle. */
  predicate Stale(dirty: bool, cached: Uniform)
  {
    dirty || cached.Error?
  }

  /** The handle the loop works with for an entry named `name`. */
  function Refreshed(s: Shader, dirty: bool, name: string, cached: Uniform): (u: Uniform)
    ensures !Stale(dirty, cached) ==> u == cached
    ensures Stale(dirty, cached) ==> u == s.GetUniform(name)
  {
    if Stale(dirty, cached) then s.GetUniform(name) else cached
  }

  /** The shader lookup the loop issues for an entry, if any. */
  function Lookups(dirty: bool, name: string, cached: Uniform): seq<Event>
  {
    if Stale(dirty, cached) then [Resolve(name)] else []
  }

  /** The names of the entries whose handles are looked up again; `handle`
      yields None for an entry the loop skips before any lookup. */
  function StaleNames<V>(dirty: bool, entries: seq<(string, V)>, handle: V -> Option<Uniform>): set<string>
  {
    set i | 0 <= i < |entries| && handle(entries[i].1).Some? && Stale(dirty, handle(entries[i].1).value)
          :: entries[i].0
  }

  /** A binding holding a null texture is skipped before its handle is
      looked at. */
  function TexHandle(b: TexParameter): Option<Uniform>
  {
    if b.texture.None? then None else Some(b.uniform)
  }

  function ParamHandle(p: Parameter): Option<Uniform> { Some(p.uniform) }

  // ---------------------------------------------------------------- textures

  /** A binding receives a texture unit: it holds a texture and its handle
      resolves. */
  predicate Binds(s: Shader, dirty: bool, name: string, b: TexParameter)
  {
    b.texture.Some? && Refreshed(s, dirty, name, b.uniform).Loc?
  }

  /** One turn of the texture loop at unit `unit`. */
  function TextureStep(s: Shader, dirty: bool, name: string, b: TexParameter, unit: nat): seq<Event>
  {
    if b.texture.None? then []
    else
      var u := Refreshed(s, dirty, name, b.uniform);
      Lookups(dirty, name, b.uniform)
      + (if u.Error? then [] else [BindTex(b.texture.value, unit), Upload(u.location, Set1i(unit))])
  }

  /** The texture loop over `entries` in key order, the next free unit being
      `unit`. */
  function TexturePass(s: Shader, dirty: bool, entries: seq<(string, TexParameter)>, unit: nat): (r: seq<Event>)
    ensures |r| <= 3 * |entries|
    decreases |entries|
  {
    if |entries| == 0 then []
    else
      var name := entries[0].0;
      var b := entries[0].1;
      TextureStep(s, dirty, name, b, unit)
      + TexturePass(s, dirty, entries[1..], if Binds(s, dirty, name, b) then unit + 1 else unit)
  }

  lemma StaleNamesTail<V>(dirty: bool, entries: seq<(string, V)>, handle: V -> Option<Uniform>)
    requires |entries| > 0
    ensures var h := handle(entries[0].1);
            StaleNames(dirty, entries, handle)
            == StaleNames(dirty, entries[1..], handle) + (if h.Some? && Stale(dirty, h.value) then {entries[0].0} else {})
  {
    var a := StaleNames(dirty, entries, handle);
    var b := StaleNames(dirty, entries[1..], handle);
    var h := handle(entries[0].1);
    forall n | n in a ensures n in b || (h.Some? && Stale(dirty, h.value) && n == entries[0].0) {
      var i :| 0 <= i < |entries| && handle(entries[i].1).Some? && Stale(dirty, handle(entries[i].1).value)
               && entries[i].0 == n;
      if i > 0 { assert entries[1..][i - 1] == entries[i]; }
    }
    forall n | n in b ensures n in a {
      var i :| 0 <= i < |entries[1..]| && handle(entries[1..][i].1).Some?
               && Stale(dirty, handle(entries[1..][i].1).value) && entries[1..][i].0 == n;
      assert entries[i + 1] == entries[1..][i];
    }
  }

  /** The texture loop binds, uploads and looks up, and it looks up only the
      names whose handles are stale. */
  lemma {:induction false} TexturePassEvents(s: Shader, dirty: bool, entries: seq<(string, TexParameter)>, unit: nat)
    ensures forall e :: e in TexturePass(s, dirty, entries, unit) ==> e.BindTex? || e.Upload? || e.Resolve?
    ensures forall e :: e in TexturePass(s, dirty, entries, unit) && e.Resolve? ==>
              e.name in StaleNames(dirty, entries, TexHandle)
    decreases |entries|
  {
    if |entries| > 0 {
      var name := entries[0].0;
      var b := entries[0].1;
      TexturePassEvents(s, dirty, entries[1..], if Binds(s, dirty, name, b) then unit + 1 else unit);
      StaleNamesTail(dirty, entries, TexHandle);
    }
  }

  lemma StaleNamesInKeys<V>(dirty: bool, entries: seq<(string, V)>, handle: V -> Option<Uniform>)
    ensures StaleNames(dirty, entries, handle) <= Keys(entries)
  {
    forall n | n in StaleNames(dirty, entries, handle) ensures n in Keys(entries) {
      var i :| 0 <= i < |entries| && handle(entries[i].1).Some? && Stale(dirty, handle(entries[i].1).value)
               && entries[i].0 == n;
    }
  }

  /** No name is looked up twice in a trace. */
  predicate LookupsDistinct(trace: seq<Event>)
  {
    forall i, j :: 0 <= i < j < |trace| && trace[i].Resolve? && trace[j].Resolve? ==> trace[i].name != trace[j].name
  }

  /** Gluing a trace whose lookups all name `name` (at most one of them) in
      front of a trace that never looks `name` up keeps lookups distinct. */
  lemma LookupsDistinctAppend(a: seq<Event>, b: seq<Event>, name: string)
    requires forall i :: 0 <= i < |a| && a[i].Resolve? ==> i == 0 && a[i].name == name
    requires LookupsDistinct(b) && forall e :: e in b && e.Resolve? ==> e.name != name
    ensures LookupsDistinct(a + b)
  {
    var t := a + b;
    forall i, j | 0 <= i < j < |t| && t[i].Resolve? && t[j].Resolve? ensures t[i].name != t[j].name {
      if i < |a| && |a| <= j {
        assert a[i].Resolve? && t[j] == b[j - |a|] && b[j - |a|] in b;
      } else if |a| <= i {
        assert t[i] == b[i - |a|] && t[j] == b[j - |a|];
      }
    }
  }

  /** The texture loop looks each name up at most once. */
  lemma {:induction false} TexturePassLooksUpOnce(s: Shader, dirty: bool, entries: Table<TexParameter>, unit: nat)
    ensures LookupsDistinct(TexturePass(s, dirty, entries, unit))
    decreases |entries|
  {
    if |entries| > 0 {
      var name := entries[0].0;
      var b := entries[0].1;
      var next := if Binds(s, dirty, name, b) then unit + 1 else unit;
      var tail: Table<TexParameter> := entries[1..];
      TexturePassLooksUpOnce(s, dirty, tail, next);
      TexturePassEvents(s, dirty, tail, next);
      StaleNamesInKeys(dirty, tail, TexHandle);
      HeadBelowTail(entries);
      LessIrreflexive(name);
      LookupsDistinctAppend(TextureStep(s, dirty, name, b, unit), TexturePass(s, dirty, tail, next), name);
    }
  }

  /** The textures that receive a unit, in key order. */
  function BoundTextures(s: Shader, dirty: bool, entries: seq<(string, TexParameter)>): seq<Texture>
    decreases |entries|
  {
    if |entries| == 0 then []
    else
      (if Binds(s, dirty, entries[0].0, entries[0].1) then [entries[0].1.texture.value] else [])
      + BoundTextures(s, dirty, entries[1..])
  }

  /** The texture-unit bindings of a trace, in order. */
  function BindEvents(trace: seq<Event>): (r: seq<Event>)
    ensures forall e :: e in r ==> e.BindTex?
    decreases |trace|
  {
    if |trace| == 0 then []
    else (if trace[0].BindTex? then [trace[0]] else []) + BindEvents(trace[1..])
  }

  lemma {:induction false} BindEventsAppend(a: seq<Event>, b: seq<Event>)
    ensures BindEvents(a + b) == BindEvents(a) + BindEvents(b)
    decreases |a|
  {
    if |a| > 0 {
      assert (a + b)[1..] == a[1..] + b;
      BindEventsAppend(a[1..], b);
    } else {
      assert a + b == b;
    }
  }

  lemma {:induction false} BindEventsNone(trace: seq<Event>)
    requires forall e :: e in trace ==> !e.BindTex?
    ensures BindEvents(trace) == []
    decreases |trace|
  {
    if |trace| > 0 {
      assert trace[0] in trace;
      BindEventsNone(trace[1..]);
    }
  }

  /** One turn of the texture loop binds at most the one texture, at `unit`. */
  lemma TextureStepBinds(s: Shader, dirty: bool, name: string, b: TexParameter, unit: nat)
    ensures BindEvents(TextureStep(s, dirty, name, b, unit))
            == if Binds(s, dirty, name, b) then [BindTex(b.texture.value, unit)] else []
  {
    var step := TextureStep(s, dirty, name, b, unit);
    if Binds(s, dirty, name, b) {
      var u := Refreshed(s, dirty, name, b.uniform);
      var tail := [BindTex(b.texture.value, unit), Upload(u.location, Set1i(unit))];
      BindEventsAppend(Lookups(dirty, name, b.uniform), tail);
      BindEventsNone(Lookups(dirty, name, b.uniform));
      assert tail[1..] == [Upload(u.location, Set1i(unit))];
      BindEventsNone(tail[1..]);
    } else {
      BindEventsNone(step);
    }
  }

  /** `binds` binds the textures of `bound` in order to units `unit`,
      `unit` + 1, ... */
  predicate NumberedFrom(binds: seq<Event>, bound: seq<Texture>, unit: nat)
  {
    |binds| == |bound| && forall i :: 0 <= i < |binds| ==> binds[i] == BindTex(bound[i], unit + i)
  }

  lemma NumberedCons(binds: seq<Event>, bound: seq<Texture>, x: Texture, unit: nat)
    requires NumberedFrom(binds, bound, unit + 1)
    ensures NumberedFrom([BindTex(x, unit)] + binds, [x] + bound, unit)
  {
    var b := [BindTex(x, unit)] + binds;
    var t := [x] + bound;
    forall i | 0 < i < |b| ensures b[i] == BindTex(t[i], unit + i) {
      assert b[i] == binds[i - 1] && t[i] == bound[i - 1];
    }
  }

  /** Units are handed out `unit`, `unit` + 1, ... to exactly the bindings
      that hold a texture whose name resolves, in key order; a null texture
      or an unresolved name consumes no unit. */
  lemma {:induction false} TextureUnitsSequential(s: Shader, dirty: bool, entries: seq<(string, TexParameter)>, unit: nat)
    ensures NumberedFrom(BindEvents(TexturePass(s, dirty, entries, unit)), BoundTextures(s, dirty, entries), unit)
    decreases |entries|
  {
    if |entries| > 0 {
      var name := entries[0].0;
      var b := entries[0].1;
      var next := if Binds(s, dirty, name, b) then unit + 1 else unit;
      var step := TextureStep(s, dirty, name, b, unit);
      var rest := TexturePass(s, dirty, entries[1..], next);
      TextureUnitsSequential(s, dirty, entries[1..], next);
      BindEventsAppend(step, rest);
      TextureStepBinds(s, dirty, name, b, unit);
      if Binds(s, dirty, name, b) {
        NumberedCons(BindEvents(rest), BoundTextures(s, dirty, entries[1..]), b.texture.value, unit);
      } else {
        assert BindEvents(step) + BindEvents(rest) == BindEvents(rest);
      }
    }
  }

  /** The sampler-uniform locations of the bindings that receive a unit, in
      key order: the i-th bound texture's handle is the i-th location. */
  function SamplerLocations(s: Shader, dirty: bool, entries: seq<(string, TexParameter)>): seq<nat>
    decreases |entries|
  {
    if |entries| == 0 then []
    else
      (if Binds(s, dirty, entries[0].0, entries[0].1)
       then [Refreshed(s, dirty, entries[0].0, entries[0].1.uniform).location] else [])
      + SamplerLocations(s, dirty, entries[1..])
  }

  /** Every texture-unit binding (at a unit numbered from `base`) is followed
      at once by the upload of that unit's index to the sampler uniform of
      the texture bound there, whose location is `locs[unit - base]`. */
  predicate UnitUploaded(trace: seq<Event>, locs: seq<nat>, base: nat)
  {
    forall k :: 0 <= k < |trace| && trace[k].BindTex? ==>
      base <= trace[k].unit < base + |locs| && k + 1 < |trace|
      && trace[k + 1] == Upload(locs[trace[k].unit - base], Set1i(trace[k].unit))
  }

  /** Every upload directly follows a texture-unit binding. */
  predicate UploadsFollowBinds(trace: seq<Event>)
  {
    forall k :: 0 <= k < |trace| && trace[k].Upload? ==> 0 < k && trace[k - 1].BindTex?
  }

  lemma UnitUploadedAppend(a: seq<Event>, b: seq<Event>, locs: seq<nat>, base: nat)
    requires UnitUploaded(a, locs, base) && UnitUploaded(b, locs, base)
    ensures UnitUploaded(a + b, locs, base)
  {
    forall k | 0 <= k < |a + b| && (a + b)[k].BindTex?
      ensures base <= (a + b)[k].unit < base + |locs| && k + 1 < |a + b|
              && (a + b)[k + 1] == Upload(locs[(a + b)[k].unit - base], Set1i((a + b)[k].unit))
    {
      if k < |a| { assert a[k].BindTex?; } else { assert b[k - |a|].BindTex?; }
    }
  }

  lemma UploadsFollowBindsAppend(a: seq<Event>, b: seq<Event>)
    requires UploadsFollowBinds(a) && UploadsFollowBinds(b)
    ensures UploadsFollowBinds(a + b)
  {
    forall k | 0 <= k < |a + b| && (a + b)[k].Upload? ensures 0 < k && (a + b)[k - 1].BindTex? {
      if k < |a| { assert a[k].Upload?; } else { assert b[k - |a|].Upload?; }
    }
  }

  /** A trace whose units start at `base` + 1 and use `locs` also fits the
      location list `[loc] + locs` with units starting at `base`: its unit
      k still finds its location at the same place. */
  lemma UnitUploadedShift(trace: seq<Event>, loc: nat, locs: seq<nat>, base: nat)
    requires UnitUploaded(trace, locs, base + 1)
    ensures UnitUploaded(trace, [loc] + locs, base)
  {
    forall k | 0 <= k < |trace| && trace[k].BindTex?
      ensures trace[k + 1] == Upload(([loc] + locs)[trace[k].unit - base], Set1i(trace[k].unit))
    {
      assert ([loc] + locs)[trace[k].unit - base] == locs[trace[k].unit - (base + 1)];
    }
  }

  lemma NoBindsUnitUploaded(trace: seq<Event>, locs: seq<nat>, base: nat)
    requires forall e :: e in trace ==> !e.BindTex?
    ensures UnitUploaded(trace, locs, base)
  {
    forall k | 0 <= k < |trace| ensures !trace[k].BindTex? {
      assert trace[k] in trace;
    }
  }

  /** One turn of the texture loop: a lookup, if any, then the binding and the
      upload of the unit to the binding's own sampler handle. */
  lemma TextureStepUploads(s: Shader, dirty: bool, name: string, b: TexParameter, unit: nat, locs: seq<nat>)
    requires Binds(s, dirty, name, b) ==> |locs| > 0 && locs[0] == Refreshed(s, dirty, name, b.uniform).location
    ensures UnitUploaded(TextureStep(s, dirty, name, b, unit), locs, unit)
    ensures UploadsFollowBinds(TextureStep(s, dirty, name, b, unit))
  {
    var step := TextureStep(s, dirty, name, b, unit);
    var look := Lookups(dirty, name, b.uniform);
    assert forall e :: e in look ==> e.Resolve?;
    if Binds(s, dirty, name, b) {
      var u := Refreshed(s, dirty, name, b.uniform);
      assert step == look + [BindTex(b.texture.value, unit), Upload(u.location, Set1i(unit))];
    } else {
      forall k | 0 <= k < |step| ensures step[k].Resolve? {
        assert step[k] in look;
      }
    }
  }

  /** The texture loop uploads each unit, right after binding it, to the
      sampler handle of the texture bound there, and uploads nothing else. */
  lemma {:induction false} TexturePassUploadsUnits(s: Shader, dirty: bool, entries: seq<(string, TexParameter)>, unit: nat)
    ensures UnitUploaded(TexturePass(s, dirty, entries, unit), SamplerLocations(s, dirty, entries), unit)
    ensures UploadsFollowBinds(TexturePass(s, dirty, entries, unit))
    decreases |entries|
  {
    if |entries| > 0 {
      var name := entries[0].0;
      var b := entries[0].1;
      var next := if Binds(s, dirty, name, b) then unit + 1 else unit;
      var step := TextureStep(s, dirty, name, b, unit);
      var rest := TexturePass(s, dirty, entries[1..], next);
      var locs := SamplerLocations(s, dirty, entries);
      var tail := SamplerLocations(s, dirty, entries[1..]);
      TexturePassUploadsUnits(s, dirty, entries[1..], next);
      if Binds(s, dirty, name, b) {
        var loc := Refreshed(s, dirty, name, b.uniform).location;
        assert locs == [loc] + tail;
        TextureStepUploads(s, dirty, name, b, unit, locs);
        UnitUploadedShift(rest, loc, tail, unit);
      } else {
        assert locs == tail;
        TextureStepUploads(s, dirty, name, b, unit, locs);
      }
      UnitUploadedAppend(step, rest, locs, unit);
      UploadsFollowBindsAppend(step, rest);
    }
  }

  /** `trace[i]` binds the texture of a binding that receives a unit, and
      when that binding's handle was stale its lookup comes right before. */
  predicate BindLookedUp(s: Shader, dirty: bool, entries: seq<(string, TexParameter)>, trace: seq<Event>, i: int)
  {
    0 <= i < |trace| && trace[i].BindTex?
    && exists k :: 0 <= k < |entries| && Binds(s, dirty, entries[k].0, entries[k].1)
                   && trace[i].texture == entries[k].1.texture.value
                   && (Stale(dirty, entries[k].1.uniform) ==> 0 < i && trace[i - 1] == Resolve(entries[k].0))
  }

  /** The bind of the first binding's own turn is looked up first. */
  lemma BindLookedUpHead(s: Shader, dirty: bool, entries: seq<(string, TexParameter)>, unit: nat,
                         rest: seq<Event>, i: int)
    requires |entries| > 0
    requires var step := TextureStep(s, dirty, entries[0].0, entries[0].1, unit);
             0 <= i < |step| && step[i].BindTex?
    ensures BindLookedUp(s, dirty, entries, TextureStep(s, dirty, entries[0].0, entries[0].1, unit) + rest, i)
  {
    var name := entries[0].0;
    var b := entries[0].1;
    var L := Lookups(dirty, name, b.uniform);
    var r := TextureStep(s, dirty, name, b, unit) + rest;
    assert Binds(s, dirty, name, b);
    assert TextureStep(s, dirty, name, b, unit)
           == L + [BindTex(b.texture.value, unit), Upload(Refreshed(s, dirty, name, b.uniform).location, Set1i(unit))];
    assert i == |L| && r[i] == BindTex(b.texture.value, unit);
    if Stale(dirty, b.uniform) {
      assert r[i - 1] == Resolve(name);
    }
  }

  /** A bind of a later binding's turn keeps its lookup right before it
      when the earlier turns are glued in front. */
  lemma BindLookedUpShift(s: Shader, dirty: bool, entries: seq<(string, TexParameter)>,
                          pre: seq<Event>, rest: seq<Event>, j: int)
    requires |entries| > 0 && BindLookedUp(s, dirty, entries[1..], rest, j)
    ensures BindLookedUp(s, dirty, entries, pre + rest, |pre| + j)
  {
    var tail := entries[1..];
    var r := pre + rest;
    var i := |pre| + j;
    var k :| 0 <= k < |tail| && Binds(s, dirty, tail[k].0, tail[k].1)
             && rest[j].texture == tail[k].1.texture.value
             && (Stale(dirty, tail[k].1.uniform) ==> 0 < j && rest[j - 1] == Resolve(tail[k].0));
    assert entries[k + 1] == tail[k];
    assert r[i] == rest[j];
    if Stale(dirty, tail[k].1.uniform) {
      assert r[i - 1] == rest[j - 1];
    }
  }

  /** The texture loop looks a stale binding up before it binds the texture
      through the handle the lookup returned. */
  lemma {:induction false} TexturePassLooksUpFirst(s: Shader, dirty: bool, entries: seq<(string, TexParameter)>, unit: nat)
    ensures var r := TexturePass(s, dirty, entries, unit);
            forall i :: 0 <= i < |r| && r[i].BindTex? ==> BindLookedUp(s, dirty, entries, r, i)
    decreases |entries|
  {
    if |entries| > 0 {
      var name := entries[0].0;
      var b := entries[0].1;
      var next := if Binds(s, dirty, name, b) then unit + 1 else unit;
      var step := TextureStep(s, dirty, name, b, unit);
      var rest := TexturePass(s, dirty, entries[1..], next);
      var r := TexturePass(s, dirty, entries, unit);
      TexturePassLooksUpFirst(s, dirty, entries[1..], next);
      assert forall i :: 0 <= i < |TexturePass(s, dirty, entries[1..], next)| && TexturePass(s, dirty, entries[1..], next)[i].BindTex?
               ==> BindLookedUp(s, dirty, entries[1..], TexturePass(s, dirty, entries[1..], next), i);
      assert r == step + rest;
      forall i | 0 <= i < |r| && r[i].BindTex? ensures BindLookedUp(s, dirty, entries, r, i) {
        if i < |step| {
          assert r[i] == step[i];
          BindLookedUpHead(s, dirty, entries, unit, rest, i);
        } else {
          assert r[i] == rest[i - |step|];
          BindLookedUpShift(s, dirty, entries, step, rest, i - |step|);
        }
      }
    }
  }

  /** `e` uploads unit `unit` + j to the j-th sampler location. */
  predicate SamplerUpload(locs: seq<nat>, unit: nat, e: Event)
  {
    exists j :: 0 <= j < |locs| && e == Upload(locs[j], Set1i(unit + j))
  }

  /** Every upload of the texture loop is that of some unit to the sampler
      location of the texture bound there. */
  lemma TexturePassUploadsAt(s: Shader, dirty: bool, entries: seq<(string, TexParameter)>, unit: nat)
    ensures forall e :: e in TexturePass(s, dirty, entries, unit) && e.Upload? ==>
              SamplerUpload(SamplerLocations(s, dirty, entries), unit, e)
  {
    var trace := TexturePass(s, dirty, entries, unit);
    var locs := SamplerLocations(s, dirty, entries);
    TexturePassUploadsUnits(s, dirty, entries, unit);
    forall e | e in trace && e.Upload? ensures SamplerUpload(locs, unit, e) {
      var k :| 0 <= k < |trace| && trace[k] == e;
      var j := trace[k - 1].unit - unit;
      assert e == Upload(locs[j], Set1i(unit + j));
    }
  }

  // ------------------------------------------------------- global parameters

  datatype GlobalResult = GlobalResult(events: seq<Event>, cache: map<string, Uniform>)

  /** The global-material loop: skip a name the material itself holds;
      otherwise take the handle from the global cache or, for a name not yet
      cached, look it up in the shader and cache it when it resolves; then
      apply the global value through it. */
  function GlobalPass(s: Shader, locals: Table<Parameter>, globals: Table<Parameter>, cache: map<string, Uniform>)
    : (r: GlobalResult)
    ensures forall n :: n in cache ==> n in r.cache && r.cache[n] == cache[n]
    ensures forall n :: n in r.cache && n !in cache ==>
              n in Keys(globals) && n !in Keys(locals) && r.cache[n] == s.GetUniform(n) && r.cache[n].Loc?
    ensures forall n :: n in Keys(globals) && n !in Keys(locals) ==> n in r.cache || s.GetUniform(n).Error?
    ensures forall e :: e in r.events ==>
              e.Upload? || (e.Resolve? && e.name in Keys(globals) && e.name !in Keys(locals) && e.name !in cache)
    decreases |globals|
  {
    if |globals| == 0 then GlobalResult([], cache)
    else
      var name := globals[0].0;
      var p := globals[0].1;
      KeysCons(globals);
      if Find(locals, name).Some? then
        GlobalPass(s, locals, globals[1..], cache)
      else if name in cache then
        var rest := GlobalPass(s, locals, globals[1..], cache);
        GlobalResult(SetUniform(p.value, cache[name]) + rest.events, rest.cache)
      else
        var u := s.GetUniform(name);
        var rest := GlobalPass(s, locals, globals[1..], if u.Error? then cache else cache[name := u]);
        GlobalResult([Resolve(name)] + SetUniform(p.value, u) + rest.events, rest.cache)
  }

  /** The global entries whose names the material does not hold itself. */
  function Unshadowed(globals: Table<Parameter>, locals: Table<Parameter>): (r: Table<Parameter>)
    ensures Keys(r) == Keys(globals) - Keys(locals)
    ensures forall e :: e in r ==> e in globals
    decreases |globals|
  {
    if |globals| == 0 then []
    else
      var rest := Unshadowed(globals[1..], locals);
      KeysCons(globals);
      if globals[0].0 in Keys(locals) then rest
      else
        HeadBelowTail(globals);
        ConsTable(globals[0], rest);
        assert forall e :: e in [globals[0]] + rest ==> e == globals[0] || e in rest;
        [globals[0]] + rest
  }

  /** Local always shadows global: the global loop behaves as if the global
      entries shadowed by local names were not there at all. */
  lemma {:induction false} LocalShadowsGlobal(s: Shader, locals: Table<Parameter>, globals: Table<Parameter>,
                                              cache: map<string, Uniform>)
    ensures GlobalPass(s, locals, globals, cache) == GlobalPass(s, [], Unshadowed(globals, locals), cache)
    decreases |globals|
  {
    if |globals| > 0 {
      var name := globals[0].0;
      KeysCons(globals);
      var rest := Unshadowed(globals[1..], locals);
      if name in Keys(locals) {
        LocalShadowsGlobal(s, locals, globals[1..], cache);
      } else {
        var g := [globals[0]] + rest;
        assert Unshadowed(globals, locals) == g;
        assert g[0] == globals[0] && g[1..] == rest;
        var c' := if name in cache || s.GetUniform(name).Error? then cache else cache[name := s.GetUniform(name)];
        LocalShadowsGlobal(s, locals, globals[1..], c');
      }
    }
  }

  /** Fallback: a global value whose name the material does not hold and
      whose handle (cached, or else resolved now) is valid is uploaded. */
  lemma {:induction false} GlobalFallback(s: Shader, locals: Table<Parameter>, globals: Table<Parameter>,
                                          cache: map<string, Uniform>, n: string, v: SetValue, h: Uniform)
    requires n !in Keys(locals) && Find(globals, n).Some? && Find(globals, n).value.value == v
    requires h == (if n in cache then cache[n] else s.GetUniform(n)) && h.Loc?
    ensures Upload(h.location, CallFor(v)) in GlobalPass(s, locals, globals, cache).events
    decreases |globals|
  {
    var name := globals[0].0;
    if name != n {
      var c' := if Find(locals, name).Some? || name in cache || s.GetUniform(name).Error? then cache
                else cache[name := s.GetUniform(name)];
      GlobalFallback(s, locals, globals[1..], c', n, v, h);
    }
  }

  /** `e` is the upload of the global entry `entry` through its handle:
      the cached one, or else the one the shader resolves. */
  predicate GlobalUpload(s: Shader, locals: Table<Parameter>, cache: map<string, Uniform>,
                         entry: (string, Parameter), e: Event)
  {
    var h := if entry.0 in cache then cache[entry.0] else s.GetUniform(entry.0);
    entry.0 !in Keys(locals) && !entry.1.value.NullValue? && h.Loc?
    && e == Upload(h.location, CallFor(entry.1.value))
  }

  /** The global loop uploads nothing but unshadowed global values through
      their valid handles. */
  lemma {:induction false} GlobalPassUploads(s: Shader, locals: Table<Parameter>, globals: Table<Parameter>,
                                             cache: map<string, Uniform>)
    ensures forall e :: e in GlobalPass(s, locals, globals, cache).events && e.Upload? ==>
              exists i :: 0 <= i < |globals| && GlobalUpload(s, locals, cache, globals[i], e)
    decreases |globals|
  {
    if |globals| > 0 {
      var name := globals[0].0;
      var p := globals[0].1;
      KeysCons(globals);
      var c' := if Find(locals, name).Some? || name in cache || s.GetUniform(name).Error? then cache
                else cache[name := s.GetUniform(name)];
      var tail := globals[1..];
      GlobalPassUploads(s, locals, tail, c');
      var r := GlobalPass(s, locals, globals, cache);
      var rest := GlobalPass(s, locals, tail, c');
      var h := if name in cache then cache[name] else s.GetUniform(name);
      forall e | e in r.events && e.Upload? ensures exists i :: 0 <= i < |globals| && GlobalUpload(s, locals, cache, globals[i], e) {
        if e in rest.events {
          var j :| 0 <= j < |tail| && GlobalUpload(s, locals, c', tail[j], e);
          assert tail[j] == globals[j + 1];
          assert Less(name, globals[j + 1].0);
          LessIrreflexive(name);
          assert GlobalUpload(s, locals, cache, globals[j + 1], e);
        } else {
          assert e in SetUniform(p.value, h);
          CallRoundTrip(p.value, e.call);
          assert GlobalUpload(s, locals, cache, globals[0], e);
        }
      }
    }
  }

  /** A second pass over a settled cache changes nothing in it. */
  lemma {:induction false} GlobalPassSettled(s: Shader, locals: Table<Parameter>, globals: Table<Parameter>,
                                             cache: map<string, Uniform>)
    requires forall n :: n in Keys(globals) && n !in Keys(locals) ==> n in cache || s.GetUniform(n).Error?
    ensures GlobalPass(s, locals, globals, cache).cache == cache
    ensures forall e :: e in GlobalPass(s, locals, globals, cache).events && e.Resolve? ==> s.GetUniform(e.name).Error?
    decreases |globals|
  {
    if |globals| > 0 {
      KeysCons(globals);
      GlobalPassSettled(s, locals, globals[1..], cache);
    }
  }

  // -------------------------------------------------------- local parameters

  /** The local-parameter loop over `entries` in key order: each entry
      contributes at most a lookup and an upload, and a dirty material's loop
      looks every entry up. */
  function LocalPass(s: Shader, dirty: bool, entries: seq<(string, Parameter)>): (r: seq<Event>)
    ensures |r| <= 2 * |entries|
    ensures dirty ==> |r| >= |entries|
    decreases |entries|
  {
    if |entries| == 0 then []
    else
      var name := entries[0].0;
      var p := entries[0].1;
      Lookups(dirty, name, p.uniform) + SetUniform(p.value, Refreshed(s, dirty, name, p.uniform))
      + LocalPass(s, dirty, entries[1..])
  }

  /** `e` is the upload of the local entry `entry` through the handle the
      loop holds for it. */
  predicate LocalUpload(s: Shader, dirty: bool, entry: (string, Parameter), e: Event)
  {
    var h := Refreshed(s, dirty, entry.0, entry.1.uniform);
    !entry.1.value.NullValue? && h.Loc? && e == Upload(h.location, CallFor(entry.1.value))
  }

  /** The local loop uploads every local value whose handle is valid, through
      that handle, and uploads nothing else. */
  lemma {:induction false} LocalPassUploads(s: Shader, dirty: bool, entries: seq<(string, Parameter)>)
    ensures forall i, e :: 0 <= i < |entries| && LocalUpload(s, dirty, entries[i], e) ==>
              e in LocalPass(s, dirty, entries)
    ensures forall e :: e in LocalPass(s, dirty, entries) && e.Upload? ==>
              exists i :: 0 <= i < |entries| && LocalUpload(s, dirty, entries[i], e)
    decreases |entries|
  {
    if |entries| > 0 {
      var name := entries[0].0;
      var p := entries[0].1;
      var tail := entries[1..];
      var up := SetUniform(p.value, Refreshed(s, dirty, name, p.uniform));
      var r := LocalPass(s, dirty, entries);
      LocalPassUploads(s, dirty, tail);
      assert r == Lookups(dirty, name, p.uniform) + up + LocalPass(s, dirty, tail);
      forall i, e | 0 <= i < |entries| && LocalUpload(s, dirty, entries[i], e) ensures e in r {
        if i == 0 {
          CallRoundTrip(p.value, up[0].call);
          assert up[0] == e;
        } else {
          assert tail[i - 1] == entries[i];
        }
      }
      forall e | e in r && e.Upload? ensures exists i :: 0 <= i < |entries| && LocalUpload(s, dirty, entries[i], e) {
        if e in LocalPass(s, dirty, tail) {
          var j :| 0 <= j < |tail| && LocalUpload(s, dirty, tail[j], e);
          assert tail[j] == entries[j + 1];
        } else {
          assert e in up;
          CallRoundTrip(p.value, e.call);
          assert LocalUpload(s, dirty, entries[0], e);
        }
      }
    }
  }

  /** `trace[i]` uploads a local value through the handle the loop holds for
      it, and when that handle was stale its lookup comes right before. */
  predicate UploadLookedUp(s: Shader, dirty: bool, entries: seq<(string, Parameter)>, trace: seq<Event>, i: int)
  {
    0 <= i < |trace|
    && exists k :: 0 <= k < |entries| && LocalUpload(s, dirty, entries[k], trace[i])
                   && (Stale(dirty, entries[k].1.uniform) ==> 0 < i && trace[i - 1] == Resolve(entries[k].0))
  }

  /** The local loop looks a stale parameter up before it uploads the value
      through the handle the lookup returned. */
  lemma {:induction false} LocalPassLooksUpFirst(s: Shader, dirty: bool, entries: seq<(string, Parameter)>)
    ensures var r := LocalPass(s, dirty, entries);
            forall i :: 0 <= i < |r| && r[i].Upload? ==> UploadLookedUp(s, dirty, entries, r, i)
    decreases |entries|
  {
    if |entries| > 0 {
      var name := entries[0].0;
      var p := entries[0].1;
      var tail := entries[1..];
      var L := Lookups(dirty, name, p.uniform);
      var up := SetUniform(p.value, Refreshed(s, dirty, name, p.uniform));
      var rest := LocalPass(s, dirty, tail);
      var r := LocalPass(s, dirty, entries);
      LocalPassLooksUpFirst(s, dirty, tail);
      assert forall i :: 0 <= i < |LocalPass(s, dirty, entries[1..])| && LocalPass(s, dirty, entries[1..])[i].Upload? ==> UploadLookedUp(s, dirty, entries[1..], LocalPass(s, dirty, entries[1..]), i);
      assert r == (L + up) + rest;
      forall i | 0 <= i < |r| && r[i].Upload? ensures UploadLookedUp(s, dirty, entries, r, i) {
        if i < |L + up| {
          assert i == |L| && r[i] == up[0];
          CallRoundTrip(p.value, up[0].call);
          assert LocalUpload(s, dirty, entries[0], r[i]);
        } else {
          var j := i - |L + up|;
          assert r[i] == rest[j];
          assert 0 <= j < |rest| && rest[j].Upload?;
          assert UploadLookedUp(s, dirty, tail, rest, j);
          var k :| 0 <= k < |tail| && LocalUpload(s, dirty, tail[k], rest[j])
                   && (Stale(dirty, tail[k].1.uniform) ==> 0 < j && rest[j - 1] == Resolve(tail[k].0));
          assert entries[k + 1] == tail[k];
          if Stale(dirty, tail[k].1.uniform) {
            assert r[i - 1] == rest[j - 1];
          }
        }
      }
    }
  }

  /** The local loop only uploads and looks up, and it looks up only the
      names whose handles are stale. */
  lemma {:induction false} LocalPassEvents(s: Shader, dirty: bool, entries: seq<(string, Parameter)>)
    ensures forall e :: e in LocalPass(s, dirty, entries) ==> e.Upload? || e.Resolve?
    ensures forall e :: e in LocalPass(s, dirty, entries) && e.Resolve? ==>
              e.name in StaleNames(dirty, entries, ParamHandle)
    decreases |entries|
  {
    if |entries| > 0 {
      LocalPassEvents(s, dirty, entries[1..]);
      StaleNamesTail(dirty, entries, ParamHandle);
    }
  }

  /** The local loop looks each name up at most once. */
  lemma {:induction false} LocalPassLooksUpOnce(s: Shader, dirty: bool, entries: Table<Parameter>)
    ensures LookupsDistinct(LocalPass(s, dirty, entries))
    decreases |entries|
  {
    if |entries| > 0 {
      var name := entries[0].0;
      var p := entries[0].1;
      var tail: Table<Parameter> := entries[1..];
      var head := Lookups(dirty, name, p.uniform) + SetUniform(p.value, Refreshed(s, dirty, name, p.uniform));
      LocalPassLooksUpOnce(s, dirty, tail);
      LocalPassEvents(s, dirty, tail);
      StaleNamesInKeys(dirty, tail, ParamHandle);
      HeadBelowTail(entries);
      LessIrreflexive(name);
      assert LocalPass(s, dirty, entries) == head + LocalPass(s, dirty, tail);
      LookupsDistinctAppend(head, LocalPass(s, dirty, tail), name);
    }
  }

  /** Every local entry whose handle is stale is looked up again. */
  lemma {:induction false} LocalPassResolvesStale(s: Shader, dirty: bool, entries: seq<(string, Parameter)>, i: int)
    requires 0 <= i < |entries| && Stale(dirty, entries[i].1.uniform)
    ensures Resolve(entries[i].0) in LocalPass(s, dirty, entries)
    decreases |entries|
  {
    if i > 0 {
      LocalPassResolvesStale(s, dirty, entries[1..], i - 1);
    }
  }

  /** Every texture binding that holds a texture and whose handle is stale is
      looked up again. */
  lemma {:induction false} TexturePassResolvesStale(s: Shader, dirty: bool, entries: seq<(string, TexParameter)>,
                                                    unit: nat, i: int)
    requires 0 <= i < |entries| && entries[i].1.texture.Some? && Stale(dirty, entries[i].1.uniform)
    ensures Resolve(entries[i].0) in TexturePass(s, dirty, entries, unit)
    decreases |entries|
  {
    if i > 0 {
      var next := if Binds(s, dirty, entries[0].0, entries[0].1) then unit + 1 else unit;
      TexturePassResolvesStale(s, dirty, entries[1..], next, i - 1);
    }
  }

  // ----------------------------------------------------------------- use()

  /** Material::use().  The loops work on copies of the entries, so the
      material keeps its maps and the handles inside them; only the dirty
      flag and the global cache change.  With no shader nothing happens. */
  function Use(m: Material, global: Material, cache: map<string, Uniform>): (r: Frame)
    ensures r.material.textures == m.textures && r.material.parameters == m.parameters
    ensures r.material.typeName == m.typeName && r.material.shader == m.shader
    ensures m.shader.None? ==> r == Frame(m, cache, [])
    ensures m.shader.Some? ==> !r.material.needsUniformUpdates && |r.events| > 0 && r.events[0] == BindShader(m.shader.value.id)
  {
    match m.shader
    case None => Frame(m, cache, [])
    case Some(s) =>
      var dirty := m.needsUniformUpdates;
      var g := GlobalPass(s, m.parameters, global.parameters, cache);
      Frame(m.(needsUniformUpdates := false), g.cache,
            [BindShader(s.id)] + (TexturePass(s, dirty, m.textures, 0) + (g.events + LocalPass(s, dirty, m.parameters))))
  }

  /** Removing nothing: global entries already free of local names pass
      through the filter unchanged. */
  lemma {:induction false} UnshadowedDisjoint(globals: Table<Parameter>, locals: Table<Parameter>)
    requires Keys(globals) !! Keys(locals)
    ensures Unshadowed(globals, locals) == globals
    decreases |globals|
  {
    if |globals| > 0 {
      KeysCons(globals);
      UnshadowedDisjoint(globals[1..], locals);
      assert globals == [globals[0]] + globals[1..];
    }
  }

  /** The calls of a frame with a shader, in their fixed order. */
  lemma UseEvents(m: Material, global: Material, cache: map<string, Uniform>)
    requires m.shader.Some?
    ensures Use(m, global, cache).events
            == [BindShader(m.shader.value.id)]
               + (TexturePass(m.shader.value, m.needsUniformUpdates, m.textures, 0)
                  + (GlobalPass(m.shader.value, m.parameters, global.parameters, cache).events
                     + LocalPass(m.shader.value, m.needsUniformUpdates, m.parameters)))
  {
  }

  /** A frame's texture-unit bindings are those of its texture loop. */
  lemma UseBindEvents(m: Material, global: Material, cache: map<string, Uniform>)
    requires m.shader.Some?
    ensures BindEvents(Use(m, global, cache).events)
            == BindEvents(TexturePass(m.shader.value, m.needsUniformUpdates, m.textures, 0))
  {
    var s := m.shader.value;
    var tex := TexturePass(s, m.needsUniformUpdates, m.textures, 0);
    var glob := GlobalPass(s, m.parameters, global.parameters, cache).events;
    var loc := LocalPass(s, m.needsUniformUpdates, m.parameters);
    UseEvents(m, global, cache);
    LocalPassEvents(s, m.needsUniformUpdates, m.parameters);
    BindEventsNone([BindShader(s.id)]);
    BindEventsNone(glob);
    BindEventsNone(loc);
    BindEventsAppend(glob, loc);
    BindEventsAppend(tex, glob + loc);
    BindEventsAppend([BindShader(s.id)], tex + (glob + loc));
  }

  /** The texture units of a frame: units 0, 1, 2, ... go to the bound
      textures in key order. */
  lemma UseBindsTexturesInKeyOrder(m: Material, global: Material, cache: map<string, Uniform>)
    requires m.shader.Some?
    ensures NumberedFrom(BindEvents(Use(m, global, cache).events),
                         BoundTextures(m.shader.value, m.needsUniformUpdates, m.textures), 0)
  {
    UseBindEvents(m, global, cache);
    TextureUnitsSequential(m.shader.value, m.needsUniformUpdates, m.textures, 0);
  }

  /** In a frame, each texture-unit binding is followed at once by the upload
      of its unit to the sampler handle of the texture bound there. */
  lemma UseUploadsTextureUnits(m: Material, global: Material, cache: map<string, Uniform>)
    requires m.shader.Some?
    ensures UnitUploaded(Use(m, global, cache).events,
                         SamplerLocations(m.shader.value, m.needsUniformUpdates, m.textures), 0)
  {
    var s := m.shader.value;
    var locs := SamplerLocations(s, m.needsUniformUpdates, m.textures);
    var tex := TexturePass(s, m.needsUniformUpdates, m.textures, 0);
    var rest := GlobalPass(s, m.parameters, global.parameters, cache).events
                + LocalPass(s, m.needsUniformUpdates, m.parameters);
    UseEvents(m, global, cache);
    TexturePassUploadsUnits(s, m.needsUniformUpdates, m.textures, 0);
    LocalPassEvents(s, m.needsUniformUpdates, m.parameters);
    NoBindsUnitUploaded(rest, locs, 0);
    NoBindsUnitUploaded([BindShader(s.id)], locs, 0);
    UnitUploadedAppend(tex, rest, locs, 0);
    UnitUploadedAppend([BindShader(s.id)], tex + rest, locs, 0);
  }

  /** Before any texture-unit binding of `trace`, every upload is the unit
      upload of the binding just before it. */
  predicate BindsFirst(trace: seq<Event>)
  {
    forall i, j :: 0 < i < j < |trace| && trace[j].BindTex? && trace[i].Upload? ==> trace[i - 1].BindTex?
  }

  lemma BindsFirstJoin(head: Event, tex: seq<Event>, rest: seq<Event>)
    requires !head.Upload? && UploadsFollowBinds(tex)
    requires forall e :: e in rest ==> !e.BindTex?
    ensures BindsFirst([head] + (tex + rest))
  {
    var ev := [head] + (tex + rest);
    forall j | 1 + |tex| <= j < |ev| ensures !ev[j].BindTex? {
      assert ev[j] == rest[j - 1 - |tex|];
      assert rest[j - 1 - |tex|] in rest;
    }
    forall i | 0 < i <= |tex| && ev[i].Upload? ensures ev[i - 1].BindTex? {
      assert ev[i] == tex[i - 1];
      if i > 1 { assert ev[i - 1] == tex[i - 2]; }
    }
  }

  /** Textures come first: before the last texture-unit binding of a frame,
      every upload directly follows a binding (it is that unit's upload, by
      UseUploadsTextureUnits), so the global and local values are uploaded
      only after every texture is bound. */
  lemma UseBindsTexturesFirst(m: Material, global: Material, cache: map<string, Uniform>)
    ensures BindsFirst(Use(m, global, cache).events)
  {
    if m.shader.Some? {
      var s := m.shader.value;
      var tex := TexturePass(s, m.needsUniformUpdates, m.textures, 0);
      var rest := GlobalPass(s, m.parameters, global.parameters, cache).events
                  + LocalPass(s, m.needsUniformUpdates, m.parameters);
      UseEvents(m, global, cache);
      TexturePassUploadsUnits(s, m.needsUniformUpdates, m.textures, 0);
      LocalPassEvents(s, m.needsUniformUpdates, m.parameters);
      BindsFirstJoin(BindShader(s.id), tex, rest);
    }
  }

  /** A call of a frame before its local loop: the shader bind, a call of the
      texture loop, or a lookup or upload of the global loop. */
  predicate EarlyCall(s: Shader, m: Material, global: Material, cache: map<string, Uniform>, e: Event)
  {
    || e.BindShader?
    || e.BindTex?
    || (e.Resolve? && (e.name in Keys(m.textures)
                       || (e.name in Keys(global.parameters) && e.name !in Keys(m.parameters))))
    || (e.Upload? && (SamplerUpload(SamplerLocations(s, m.needsUniformUpdates, m.textures), 0, e)
                      || exists i :: 0 <= i < |global.parameters|
                                     && GlobalUpload(s, m.parameters, cache, global.parameters[i], e)))
  }

  /** A call of the local loop: a lookup of a local name, or the upload of a
      local value through the handle the loop holds for it. */
  predicate LocalCall(s: Shader, m: Material, e: Event)
  {
    || (e.Resolve? && e.name in Keys(m.parameters))
    || (e.Upload? && exists i :: 0 <= i < |m.parameters| && LocalUpload(s, m.needsUniformUpdates, m.parameters[i], e))
  }

  /** `trace` splits at `k` into early calls followed by local-loop calls. */
  predicate PhasedAt(s: Shader, m: Material, global: Material, cache: map<string, Uniform>, trace: seq<Event>, k: int)
  {
    && 0 <= k <= |trace|
    && (forall i :: 0 <= i < k ==> EarlyCall(s, m, global, cache, trace[i]))
    && (forall i :: k <= i < |trace| ==> LocalCall(s, m, trace[i]))
  }

  lemma TextureCallsEarly(m: Material, global: Material, cache: map<string, Uniform>)
    requires m.shader.Some?
    ensures forall e :: e in TexturePass(m.shader.value, m.needsUniformUpdates, m.textures, 0) ==>
              EarlyCall(m.shader.value, m, global, cache, e)
  {
    TexturePassEvents(m.shader.value, m.needsUniformUpdates, m.textures, 0);
    StaleNamesInKeys(m.needsUniformUpdates, m.textures, TexHandle);
    TexturePassUploadsAt(m.shader.value, m.needsUniformUpdates, m.textures, 0);
  }

  lemma GlobalCallsEarly(m: Material, global: Material, cache: map<string, Uniform>)
    requires m.shader.Some?
    ensures forall e :: e in GlobalPass(m.shader.value, m.parameters, global.parameters, cache).events ==>
              EarlyCall(m.shader.value, m, global, cache, e)
  {
    GlobalPassUploads(m.shader.value, m.parameters, global.parameters, cache);
  }

  lemma LocalCallsLate(m: Material)
    requires m.shader.Some?
    ensures forall e :: e in LocalPass(m.shader.value, m.needsUniformUpdates, m.parameters) ==>
              LocalCall(m.shader.value, m, e)
  {
    LocalPassEvents(m.shader.value, m.needsUniformUpdates, m.parameters);
    StaleNamesInKeys(m.needsUniformUpdates, m.parameters, ParamHandle);
    LocalPassUploads(m.shader.value, m.needsUniformUpdates, m.parameters);
  }

  /** Gluing the shader bind, the texture loop, the global loop and the local
      loop yields a trace split where the local loop begins. */
  lemma PhasedJoin(s: Shader, m: Material, global: Material, cache: map<string, Uniform>,
                   head: Event, tex: seq<Event>, g: seq<Event>, loc: seq<Event>)
    requires EarlyCall(s, m, global, cache, head)
    requires forall e :: e in tex ==> EarlyCall(s, m, global, cache, e)
    requires forall e :: e in g ==> EarlyCall(s, m, global, cache, e)
    requires forall e :: e in loc ==> LocalCall(s, m, e)
    ensures PhasedAt(s, m, global, cache, [head] + (tex + (g + loc)), 1 + |tex| + |g|)
  {
    var ev := [head] + (tex + (g + loc));
    var k := 1 + |tex| + |g|;
    forall i | 0 <= i < k ensures EarlyCall(s, m, global, cache, ev[i]) {
      if i == 0 {
      } else if i <= |tex| {
        assert ev[i] == tex[i - 1] && tex[i - 1] in tex;
      } else {
        assert ev[i] == g[i - 1 - |tex|] && g[i - 1 - |tex|] in g;
      }
    }
    forall i | k <= i < |ev| ensures LocalCall(s, m, ev[i]) {
      assert ev[i] == loc[i - k] && loc[i - k] in loc;
    }
  }

  /** Globals before locals: every call of a frame up to some point is the
      shader bind, a texture-loop call or a global-loop call, and every call
      from there on is a lookup or upload of the local loop. So where a global
      value and a local value land on one location, the local value is the
      one the location keeps. */
  lemma UseGlobalsBeforeLocals(m: Material, global: Material, cache: map<string, Uniform>)
    requires m.shader.Some?
    ensures exists k :: PhasedAt(m.shader.value, m, global, cache, Use(m, global, cache).events, k)
  {
    var s := m.shader.value;
    var dirty := m.needsUniformUpdates;
    var tex := TexturePass(s, dirty, m.textures, 0);
    var g := GlobalPass(s, m.parameters, global.parameters, cache).events;
    var loc := LocalPass(s, dirty, m.parameters);
    UseEvents(m, global, cache);
    TextureCallsEarly(m, global, cache);
    GlobalCallsEarly(m, global, cache);
    LocalCallsLate(m);
    PhasedJoin(s, m, global, cache, BindShader(s.id), tex, g, loc);
  }

  /** The call the last upload of `trace` to location `loc` carried: what
      the uniform there holds once the trace has run. */
  function LastUpload(trace: seq<Event>, loc: nat): (r: Option<Call>)
    ensures r.Some? ==> Upload(loc, r.value) in trace
    decreases |trace|
  {
    if |trace| == 0 then None
    else
      var e := trace[|trace| - 1];
      if e.Upload? && e.location == loc then Some(e.call)
      else LastUpload(trace[..|trace| - 1], loc)
  }

  /** The shared-location example: a shader placing "P" at 3, a later one
      placing "Q" at 3, a global material with P = 5, and a material with
      the later shader and Q = 8. */
  function EarlierShader(): Shader { Shader(1, map["P" := 3]) }
  function LaterShader(): Shader { Shader(2, map["Q" := 3]) }
  function GlobalP(): Material { SetParameter(NewMaterial(), "P", IntValue(5)) }
  function LocalQ(): Material { SetParameter(SetShader(NewMaterial(), Some(LaterShader())), "Q", IntValue(8)) }

  /** A frame under the earlier shader caches P at location 3. */
  lemma EarlierShaderPrimesCache()
    ensures Use(SetShader(NewMaterial(), Some(EarlierShader())), GlobalP(), map[]).globalCache == map["P" := Loc(3)]
  {
    assert GlobalP().parameters == [("P", Parameter(IntValue(5), Error))];
  }

  lemma SharedGlobalPass()
    ensures GlobalPass(LaterShader(), LocalQ().parameters, GlobalP().parameters, map["P" := Loc(3)]).events
            == [Upload(3, Set1i(5))]
  {
    assert GlobalP().parameters == [("P", Parameter(IntValue(5), Error))];
    assert LocalQ().parameters == [("Q", Parameter(IntValue(8), Error))];
  }

  lemma SharedLocalPass()
    ensures LocalPass(LaterShader(), true, LocalQ().parameters) == [Resolve("Q"), Upload(3, Set1i(8))]
  {
    assert LocalQ().parameters == [("Q", Parameter(IntValue(8), Error))];
  }

  /** The calls of LocalQ's frame over the primed cache. */
  lemma SharedFrameEvents()
    ensures Use(LocalQ(), GlobalP(), map["P" := Loc(3)]).events
            == [BindShader(2), Upload(3, Set1i(5)), Resolve("Q"), Upload(3, Set1i(8))]
  {
    UseEvents(LocalQ(), GlobalP(), map["P" := Loc(3)]);
    SharedGlobalPass();
    SharedLocalPass();
    assert LocalQ().textures == [];
  }

  /** A global handle cached under an earlier shader can land on a local
      parameter's location: the frame of LocalQ over the cache the earlier
      shader primed uploads P's global value at 3 first and then Q's, so
      location 3 keeps Q's value. */
  lemma GlobalThenLocalAtSharedLocation()
    ensures var r2 := Use(LocalQ(), GlobalP(), map["P" := Loc(3)]);
            && Use(SetShader(NewMaterial(), Some(EarlierShader())), GlobalP(), map[]).globalCache == map["P" := Loc(3)]
            && LaterShader().GetUniform("Q") == Loc(3)
            && r2.events == [BindShader(2), Upload(3, Set1i(5)), Resolve("Q"), Upload(3, Set1i(8))]
            && LastUpload(r2.events, 3) == Some(Set1i(8))
  {
    EarlierShaderPrimesCache();
    SharedFrameEvents();
    var ev := [BindShader(2), Upload(3, Set1i(5)), Resolve("Q"), Upload(3, Set1i(8))];
    assert ev[|ev| - 1] == Upload(3, Set1i(8));
    assert LastUpload(ev, 3) == Some(Set1i(8));
  }

  /** Local always shadows global, for a whole frame: the frame is the same
      as if the global material held none of the names the material holds. */
  lemma UseShadowsGlobals(m: Material, global: Material, cache: map<string, Uniform>)
    ensures Use(m, global, cache)
            == Use(m, global.(parameters := Unshadowed(global.parameters, m.parameters)), cache)
  {
    if m.shader.Some? {
      var s := m.shader.value;
      var u := Unshadowed(global.parameters, m.parameters);
      LocalShadowsGlobal(s, m.parameters, global.parameters, cache);
      LocalShadowsGlobal(s, m.parameters, u, cache);
      UnshadowedDisjoint(u, m.parameters);
    }
  }

  /** Fallback, for a whole frame: a global value under a name the material
      does not hold is uploaded when its handle, cached or resolved now, is
      valid. */
  lemma UseFallsBackToGlobal(m: Material, global: Material, cache: map<string, Uniform>,
                             n: string, v: SetValue, h: Uniform)
    requires m.shader.Some? && n !in Keys(m.parameters)
    requires Find(global.parameters, n).Some? && Find(global.parameters, n).value.value == v
    requires h == (if n in cache then cache[n] else m.shader.value.GetUniform(n)) && h.Loc?
    ensures Upload(h.location, CallFor(v)) in Use(m, global, cache).events
  {
    var s := m.shader.value;
    var dirty := m.needsUniformUpdates;
    var g := GlobalPass(s, m.parameters, global.parameters, cache);
    GlobalFallback(s, m.parameters, global.parameters, cache, n, v, h);
    UseEvents(m, global, cache);
    assert Upload(h.location, CallFor(v)) in g.events + LocalPass(s, dirty, m.parameters);
  }

  /** Local values reach the shader: a local value whose handle is looked up
      afresh (the material is dirty or holds an error handle) and resolves is
      uploaded through the shader's handle for its name. */
  lemma UseUploadsLocal(m: Material, global: Material, cache: map<string, Uniform>, n: string)
    requires m.shader.Some? && n in Keys(m.parameters) && !GetParameter(m, n).value.NullValue?
    requires m.needsUniformUpdates || GetParameter(m, n).uniform.Error?
    requires m.shader.value.GetUniform(n).Loc?
    ensures Upload(m.shader.value.GetUniform(n).location, CallFor(GetParameter(m, n).value))
            in Use(m, global, cache).events
  {
    var s := m.shader.value;
    var dirty := m.needsUniformUpdates;
    var p := GetParameter(m, n);
    var e := Upload(s.GetUniform(n).location, CallFor(p.value));
    var i :| 0 <= i < |m.parameters| && m.parameters[i] == (n, p);
    assert LocalUpload(s, dirty, m.parameters[i], e);
    LocalPassUploads(s, dirty, m.parameters);
    UseEvents(m, global, cache);
    assert e in GlobalPass(s, m.parameters, global.parameters, cache).events + LocalPass(s, dirty, m.parameters);
  }

  /** Every upload of a frame is one of three: a texture unit to its
      sampler handle, an unshadowed global value through its cached or
      resolved handle, or a local value through the handle the loop holds.
      In particular a local value whose name the shader does not resolve is
      uploaded nowhere by the local loop. */
  lemma UseUploads(m: Material, global: Material, cache: map<string, Uniform>)
    requires m.shader.Some?
    ensures var s := m.shader.value;
            var dirty := m.needsUniformUpdates;
            forall e :: e in Use(m, global, cache).events && e.Upload? ==>
              || SamplerUpload(SamplerLocations(s, dirty, m.textures), 0, e)
              || (exists i :: 0 <= i < |global.parameters| && GlobalUpload(s, m.parameters, cache, global.parameters[i], e))
              || (exists i :: 0 <= i < |m.parameters| && LocalUpload(s, dirty, m.parameters[i], e))
  {
    var s := m.shader.value;
    var dirty := m.needsUniformUpdates;
    UseEvents(m, global, cache);
    TexturePassUploadsAt(s, dirty, m.textures, 0);
    GlobalPassUploads(s, m.parameters, global.parameters, cache);
    LocalPassUploads(s, dirty, m.parameters);
  }

  /** A dirty material looks up every local parameter and every texture it
      holds again, however valid the handles looked. */
  lemma DirtyUseResolvesEverything(m: Material, global: Material, cache: map<string, Uniform>)
    requires m.shader.Some? && m.needsUniformUpdates
    ensures forall n :: n in Keys(m.parameters) ==> Resolve(n) in Use(m, global, cache).events
    ensures forall i :: 0 <= i < |m.textures| && m.textures[i].1.texture.Some? ==>
              Resolve(m.textures[i].0) in Use(m, global, cache).events
  {
    var s := m.shader.value;
    var tex := TexturePass(s, true, m.textures, 0);
    var g := GlobalPass(s, m.parameters, global.parameters, cache);
    var loc := LocalPass(s, true, m.parameters);
    UseEvents(m, global, cache);
    forall n | n in Keys(m.parameters) ensures Resolve(n) in Use(m, global, cache).events {
      var i :| 0 <= i < |m.parameters| && m.parameters[i].0 == n;
      LocalPassResolvesStale(s, true, m.parameters, i);
      assert Resolve(n) in g.events + loc;
    }
    forall i | 0 <= i < |m.textures| && m.textures[i].1.texture.Some?
      ensures Resolve(m.textures[i].0) in Use(m, global, cache).events
    {
      TexturePassResolvesStale(s, true, m.textures, 0, i);
      assert Resolve(m.textures[i].0) in tex + (g.events + loc);
    }
  }

  /** After setShader the next frame looks every name up in the new shader
      and uploads each local value whose name it resolves at the new
      shader's location for it. */
  lemma NewShaderResolvesEverything(m: Material, s: Shader, global: Material, cache: map<string, Uniform>)
    ensures var r := Use(SetShader(m, Some(s)), global, cache);
            (forall n :: n in Keys(m.parameters) ==> Resolve(n) in r.events)
            && (forall i :: 0 <= i < |m.textures| && m.textures[i].1.texture.Some? ==> Resolve(m.textures[i].0) in r.events)
    ensures forall n :: n in Keys(m.parameters) && !GetParameter(m, n).value.NullValue? && s.GetUniform(n).Loc? ==>
              Upload(s.GetUniform(n).location, CallFor(GetParameter(m, n).value))
              in Use(SetShader(m, Some(s)), global, cache).events
  {
    var m' := SetShader(m, Some(s));
    DirtyUseResolvesEverything(m', global, cache);
    forall n | n in Keys(m.parameters) && !GetParameter(m, n).value.NullValue? && s.GetUniform(n).Loc?
      ensures Upload(s.GetUniform(n).location, CallFor(GetParameter(m, n).value)) in Use(m', global, cache).events
    {
      UseUploadsLocal(m', global, cache, n);
    }
  }

  /** The global cache settles after one frame: a second frame of the same
      material adds nothing to it. */
  lemma GlobalCacheSettles(m: Material, global: Material, cache: map<string, Uniform>)
    ensures var r1 := Use(m, global, cache);
            Use(r1.material, global, r1.globalCache).globalCache == r1.globalCache
  {
    var r1 := Use(m, global, cache);
    if m.shader.Some? {
      GlobalPassSettled(m.shader.value, m.parameters, global.parameters, r1.globalCache);
    }
  }

  /** The global cache only grows, keeps what it held, and gains only valid
      handles; a material whose handles are all error handles keeps them. */
  lemma UseGrowsGlobalCache(m: Material, global: Material, cache: map<string, Uniform>)
    ensures var r := Use(m, global, cache);
            && (forall n :: n in cache ==> n in r.globalCache && r.globalCache[n] == cache[n])
            && (forall n :: n in r.globalCache && n !in cache ==>
                  m.shader.Some? && r.globalCache[n] == m.shader.value.GetUniform(n) && r.globalCache[n].Loc?
                  && n in Keys(global.parameters) && n !in Keys(m.parameters))
            && (ColdCaches(m) ==> ColdCaches(r.material))
  {
  }

  /** A material with shader `s` and textures "a", "b", "c" bound to
      textures 10, 11, 12, marked for update. */
  function ThreeTextures(s: Shader): Material
  {
    assert Less("a", "b") && Less("b", "c") && Less("a", "c");
    Material("", Some(s),
             [("a", TexParameter(Some(Texture(10)), Error)),
              ("b", TexParameter(Some(Texture(11)), Error)),
              ("c", TexParameter(Some(Texture(12)), Error))],
             [], true)
  }

  /** Three textures whose middle name the shader lacks get units 0 and 1,
      not 0 and 2. */
  lemma MiddleTextureAbsent()
    ensures var s := Shader(1, map["a" := 0, "c" := 1]);
            BindEvents(Use(ThreeTextures(s), NewMaterial(), map[]).events)
            == [BindTex(Texture(10), 0), BindTex(Texture(12), 1)]
  {
    var s := Shader(1, map["a" := 0, "c" := 1]);
    var t := ThreeTextures(s).textures;
    assert "b" !in s.active;
    assert BoundTextures(s, true, t[2..]) == [Texture(12)];
    assert BoundTextures(s, true, t[1..]) == [Texture(12)] by {
      assert t[1..][1..] == t[2..];
    }
    assert BoundTextures(s, true, t) == [Texture(10), Texture(12)];
    UseBindsTexturesInKeyOrder(ThreeTextures(s), NewMaterial(), map[]);
  }

  /** The global cache is keyed by name alone: once a shader placing "P" at
      location 3 has primed it, a frame under a shader placing "P" at 7
      uploads the global value to location 3 and does not look "P" up. */
  lemma GlobalCacheIgnoresShader()
    ensures var a := Shader(1, map["P" := 3]);
            var b := Shader(2, map["P" := 7]);
            var global := SetParameter(NewMaterial(), "P", IntValue(5));
            var r1 := Use(SetShader(NewMaterial(), Some(a)), global, map[]);
            var r2 := Use(SetShader(NewMaterial(), Some(b)), global, r1.globalCache);
            && b.GetUniform("P") == Loc(7)
            && Upload(3, Set1i(5)) in r2.events
            && Resolve("P") !in r2.events
  {
    var a := Shader(1, map["P" := 3]);
    var b := Shader(2, map["P" := 7]);
    var global := SetParameter(NewMaterial(), "P", IntValue(5));
    var m1 := SetShader(NewMaterial(), Some(a));
    var m2 := SetShader(NewMaterial(), Some(b));
    assert global.parameters == [("P", Parameter(IntValue(5), Error))];
    var r1 := Use(m1, global, map[]);
    assert r1.globalCache == map["P" := Loc(3)];
    var r2 := Use(m2, global, r1.globalCache);
    UseEvents(m2, global, r1.globalCache);
    assert GlobalPass(b, m2.parameters, global.parameters, r1.globalCache).events == [Upload(3, Set1i(5))];
  }
}

=== FILE: cached_activation.dfy ===
/** The handle caching of Material::use() as written and as evidently
    intended.  The texture and local-parameter loops iterate over copies of
    the map entries and write the handles they look up into those copies, so
    no handle ever reaches the material: every stored handle stays an error
    handle and every frame looks every local parameter, and every binding that
    holds a texture, up again, whatever the dirty flag says.  UseCaching is use() with the looked-up handles written
    back into the material; it issues the same calls in the first frame and
    no lookup of an already-resolved name in the next. */
module CachedActivation {
  import opened Wrappers
  import opened OrderedMap
  import opened Gpu
  import opened Parameters
  import opened Materials
  import opened Activation

  // ------------------------------------------------------------ as written

  /** As written: a material whose handles are all error handles (every
      material the engine can build) looks up every local parameter and every
      binding that holds a texture in every frame, dirty or not. */
  lemma UseReResolvesEveryFrame(m: Material, global: Material, cache: map<string, Uniform>)
    requires m.shader.Some? && ColdCaches(m)
    ensures forall n :: n in Keys(m.parameters) ==> Resolve(n) in Use(m, global, cache).events
    ensures forall i :: 0 <= i < |m.textures| && m.textures[i].1.texture.Some? ==>
              Resolve(m.textures[i].0) in Use(m, global, cache).events
  {
    var s := m.shader.value;
    var dirty := m.needsUniformUpdates;
    var tex := TexturePass(s, dirty, m.textures, 0);
    var g := GlobalPass(s, m.parameters, global.parameters, cache);
    var loc := LocalPass(s, dirty, m.parameters);
    UseEvents(m, global, cache);
    forall n | n in Keys(m.parameters) ensures Resolve(n) in Use(m, global, cache).events {
      var i :| 0 <= i < |m.parameters| && m.parameters[i].0 == n;
      assert m.parameters[i] in m.parameters;
      LocalPassResolvesStale(s, dirty, m.parameters, i);
      assert Resolve(n) in g.events + loc;
    }
    forall i | 0 <= i < |m.textures| && m.textures[i].1.texture.Some?
      ensures Resolve(m.textures[i].0) in Use(m, global, cache).events
    {
      assert m.textures[i] in m.textures;
      TexturePassResolvesStale(s, dirty, m.textures, 0, i);
      assert Resolve(m.textures[i].0) in tex + (g.events + loc);
    }
  }

  /** The example shader: uniform "P" at location 0. */
  function ExampleShader(): Shader { Shader(0, map["P" := 0]) }

  /** A material with that shader and an Int parameter "P". */
  function ExampleMaterial(): Material
  {
    SetParameter(SetShader(NewMaterial(), Some(ExampleShader())), "P", IntValue(1))
  }

  /** As written: the second frame of an unchanged, clean material looks "P"
      up again although it resolved in the first. */
  lemma SecondFrameResolvesAgain()
    ensures var r1 := Use(ExampleMaterial(), NewMaterial(), map[]);
            && ExampleShader().GetUniform("P").Loc?
            && !r1.material.needsUniformUpdates
            && Resolve("P") in Use(r1.material, NewMaterial(), r1.globalCache).events
  {
    var r1 := Use(ExampleMaterial(), NewMaterial(), map[]);
    assert "P" in Keys(r1.material.parameters) by {
      assert Find(ExampleMaterial().parameters, "P").Some?;
    }
    UseReResolvesEveryFrame(r1.material, NewMaterial(), r1.globalCache);
  }

  // ------------------------------------------------------------- corrected

  /** What the loop leaves in a texture binding once the handle is written
      back; a null-texture binding is skipped untouched. */
  function StoredTexture(s: Shader, dirty: bool, name: string, b: TexParameter): TexParameter
  {
    if b.texture.None? then b else b.(uniform := Refreshed(s, dirty, name, b.uniform))
  }

  /** What the loop leaves in a local parameter once the handle is written
      back. */
  function StoredParameter(s: Shader, dirty: bool, name: string, p: Parameter): Parameter
  {
    p.(uniform := Refreshed(s, dirty, name, p.uniform))
  }

  function RefreshTextures(s: Shader, dirty: bool, t: Table<TexParameter>): (r: Table<TexParameter>)
    ensures |r| == |t|
    ensures forall i :: 0 <= i < |r| ==> r[i] == (t[i].0, StoredTexture(s, dirty, t[i].0, t[i].1))
  {
    seq(|t|, i requires 0 <= i < |t| => (t[i].0, StoredTexture(s, dirty, t[i].0, t[i].1)))
  }

  function RefreshParameters(s: Shader, dirty: bool, t: Table<Parameter>): (r: Table<Parameter>)
    ensures |r| == |t|
    ensures forall i :: 0 <= i < |r| ==> r[i] == (t[i].0, StoredParameter(s, dirty, t[i].0, t[i].1))
  {
    seq(|t|, i requires 0 <= i < |t| => (t[i].0, StoredParameter(s, dirty, t[i].0, t[i].1)))
  }

  /** use() with the looked-up handles written back: the same calls and the
      same global cache as use(), the same names, textures and values, the
      dirty flag cleared, and in every entry the very handle the frame
      looked up or reused for it, which is an error handle only where the
      name does not resolve. */
  function UseCaching(m: Material, global: Material, cache: map<string, Uniform>): (r: Frame)
    ensures r.events == Use(m, global, cache).events && r.globalCache == Use(m, global, cache).globalCache
    ensures |r.material.textures| == |m.textures| && |r.material.parameters| == |m.parameters|
    ensures forall i :: 0 <= i < |m.parameters| ==>
              r.material.parameters[i].0 == m.parameters[i].0
              && r.material.parameters[i].1.value == m.parameters[i].1.value
              && (m.shader.Some? && r.material.parameters[i].1.uniform.Error? ==>
                    m.shader.value.GetUniform(m.parameters[i].0).Error?)
    ensures forall i :: 0 <= i < |m.textures| ==>
              r.material.textures[i].0 == m.textures[i].0
              && r.material.textures[i].1.texture == m.textures[i].1.texture
    ensures m.shader.Some? ==>
              && r.material.shader == m.shader && r.material.typeName == m.typeName
              && !r.material.needsUniformUpdates
              && HandlesSettled(m.shader.value, r.material)
    ensures m.shader.Some? ==> forall i :: 0 <= i < |m.parameters| ==>
              r.material.parameters[i].1.uniform
              == Refreshed(m.shader.value, m.needsUniformUpdates, m.parameters[i].0, m.parameters[i].1.uniform)
    ensures m.shader.Some? ==> forall i :: 0 <= i < |m.textures| ==>
              r.material.textures[i].1.uniform
              == if m.textures[i].1.texture.None? then m.textures[i].1.uniform
                 else Refreshed(m.shader.value, m.needsUniformUpdates, m.textures[i].0, m.textures[i].1.uniform)
    ensures !m.shader.Some? ==> r.material == m
  {
    match m.shader
    case None => Frame(m, cache, [])
    case Some(s) =>
      var f := Use(m, global, cache);
      var dirty := m.needsUniformUpdates;
      Frame(f.material.(textures := RefreshTextures(s, dirty, m.textures),
                        parameters := RefreshParameters(s, dirty, m.parameters)),
            f.globalCache, f.events)
  }

  /** Looking a handle up again after it was written back changes nothing. */
  lemma RefreshedSettles(s: Shader, dirty: bool, name: string, u: Uniform)
    ensures Refreshed(s, false, name, Refreshed(s, dirty, name, u)) == Refreshed(s, dirty, name, u)
    ensures Refreshed(s, dirty, name, u).Error? ==> s.GetUniform(name).Error?
  {
  }

  lemma RefreshTexturesSettles(s: Shader, dirty: bool, t: Table<TexParameter>)
    ensures RefreshTextures(s, false, RefreshTextures(s, dirty, t)) == RefreshTextures(s, dirty, t)
  {
    var r := RefreshTextures(s, dirty, t);
    forall i | 0 <= i < |t| ensures RefreshTextures(s, false, r)[i] == r[i] {
      RefreshedSettles(s, dirty, t[i].0, t[i].1.uniform);
    }
  }

  lemma RefreshParametersSettles(s: Shader, dirty: bool, t: Table<Parameter>)
    ensures RefreshParameters(s, false, RefreshParameters(s, dirty, t)) == RefreshParameters(s, dirty, t)
  {
    var r := RefreshParameters(s, dirty, t);
    forall i | 0 <= i < |t| ensures RefreshParameters(s, false, r)[i] == r[i] {
      RefreshedSettles(s, dirty, t[i].0, t[i].1.uniform);
    }
  }

  lemma RefreshKeepsKeys(s: Shader, dirty: bool, t: Table<Parameter>)
    ensures Keys(RefreshParameters(s, dirty, t)) == Keys(t)
  {
    var r := RefreshParameters(s, dirty, t);
    forall n | n in Keys(r) ensures n in Keys(t) {
      var i :| 0 <= i < |r| && r[i].0 == n;
      assert t[i].0 == n;
    }
    forall n | n in Keys(t) ensures n in Keys(r) {
      var i :| 0 <= i < |t| && t[i].0 == n;
      assert r[i].0 == n;
    }
  }

  /** The material and cache after a caching frame with a shader. */
  lemma UseCachingState(m: Material, global: Material, cache: map<string, Uniform>)
    requires m.shader.Some?
    ensures var r1 := UseCaching(m, global, cache);
            && r1.material.shader == m.shader && !r1.material.needsUniformUpdates
            && r1.material.textures == RefreshTextures(m.shader.value, m.needsUniformUpdates, m.textures)
            && r1.material.parameters == RefreshParameters(m.shader.value, m.needsUniformUpdates, m.parameters)
            && r1.globalCache == GlobalPass(m.shader.value, m.parameters, global.parameters, cache).cache
  {
  }

  /** Corrected: the second frame leaves material and global cache as the
      first frame left them. */
  lemma CachedSecondFrameKeepsState(m: Material, global: Material, cache: map<string, Uniform>)
    requires m.shader.Some?
    ensures var r1 := UseCaching(m, global, cache);
            var r2 := UseCaching(r1.material, global, r1.globalCache);
            r2.material == r1.material && r2.globalCache == r1.globalCache
  {
    var s := m.shader.value;
    var dirty := m.needsUniformUpdates;
    var r1 := UseCaching(m, global, cache);
    UseCachingState(m, global, cache);
    UseCachingState(r1.material, global, r1.globalCache);
    RefreshTexturesSettles(s, dirty, m.textures);
    RefreshParametersSettles(s, dirty, m.parameters);
    RefreshKeepsKeys(s, dirty, m.parameters);
    GlobalPassSettled(s, r1.material.parameters, global.parameters, r1.globalCache);
  }

  /** Every stored handle of a material that is an error handle (for a
      binding that holds a texture) belongs to a name the shader does not
      resolve. */
  predicate HandlesSettled(s: Shader, m: Material)
  {
    && (forall i :: 0 <= i < |m.textures| && m.textures[i].1.texture.Some? && m.textures[i].1.uniform.Error? ==>
          s.GetUniform(m.textures[i].0).Error?)
    && (forall i :: 0 <= i < |m.parameters| && m.parameters[i].1.uniform.Error? ==>
          s.GetUniform(m.parameters[i].0).Error?)
  }

  /** A clean frame over settled handles and a settled global cache looks up
      only names the shader does not resolve. */
  lemma SettledFrameLookups(m: Material, global: Material, cache: map<string, Uniform>)
    requires m.shader.Some? && !m.needsUniformUpdates && HandlesSettled(m.shader.value, m)
    requires forall n :: n in Keys(global.parameters) && n !in Keys(m.parameters) ==>
               n in cache || m.shader.value.GetUniform(n).Error?
    ensures forall e :: e in Use(m, global, cache).events && e.Resolve? ==> m.shader.value.GetUniform(e.name).Error?
  {
    var s := m.shader.value;
    var tex := TexturePass(s, false, m.textures, 0);
    var g := GlobalPass(s, m.parameters, global.parameters, cache);
    var loc := LocalPass(s, false, m.parameters);
    UseEvents(m, global, cache);
    GlobalPassSettled(s, m.parameters, global.parameters, cache);
    TexturePassEvents(s, false, m.textures, 0);
    LocalPassEvents(s, false, m.parameters);
    forall e | e in Use(m, global, cache).events && e.Resolve? ensures s.GetUniform(e.name).Error? {
      if e in tex {
        var i :| 0 <= i < |m.textures| && TexHandle(m.textures[i].1).Some?
                 && Stale(false, TexHandle(m.textures[i].1).value) && m.textures[i].0 == e.name;
      } else if e in loc {
        var i :| 0 <= i < |m.parameters| && ParamHandle(m.parameters[i].1).Some?
                 && Stale(false, ParamHandle(m.parameters[i].1).value) && m.parameters[i].0 == e.name;
      }
    }
  }

  /** Corrected: the second frame looks up only names the shader does not
      resolve. */
  lemma CachedSecondFrameLookups(m: Material, global: Material, cache: map<string, Uniform>)
    requires m.shader.Some?
    ensures var r1 := UseCaching(m, global, cache);
            forall e :: e in UseCaching(r1.material, global, r1.globalCache).events && e.Resolve? ==>
              m.shader.value.GetUniform(e.name).Error?
  {
    var s := m.shader.value;
    var r1 := UseCaching(m, global, cache);
    UseCachingState(m, global, cache);
    RefreshKeepsKeys(s, m.needsUniformUpdates, m.parameters);
    SettledFrameLookups(r1.material, global, r1.globalCache);
  }

  /** The calls of a trace that reach the draw: texture-unit bindings and
      uploads, in order. */
  function Effects(trace: seq<Event>): (r: seq<Event>)
    ensures forall e :: e in r ==> e.BindTex? || e.Upload?
    decreases |trace|
  {
    if |trace| == 0 then []
    else (if trace[0].BindTex? || trace[0].Upload? then [trace[0]] else []) + Effects(trace[1..])
  }

  lemma {:induction false} EffectsAppend(a: seq<Event>, b: seq<Event>)
    ensures Effects(a + b) == Effects(a) + Effects(b)
    decreases |a|
  {
    if |a| > 0 {
      assert (a + b)[1..] == a[1..] + b;
      EffectsAppend(a[1..], b);
    } else {
      assert a + b == b;
    }
  }

  lemma {:induction false} EffectsKeep(t: seq<Event>)
    requires forall e :: e in t ==> e.BindTex? || e.Upload?
    ensures Effects(t) == t
    decreases |t|
  {
    if |t| > 0 {
      assert t[0] in t;
      EffectsKeep(t[1..]);
    }
  }

  lemma {:induction false} EffectsDrop(t: seq<Event>)
    requires forall e :: e in t ==> e.Resolve? || e.BindShader?
    ensures Effects(t) == []
    decreases |t|
  {
    if |t| > 0 {
      assert t[0] in t;
      EffectsDrop(t[1..]);
    }
  }

  /** Over bindings whose handles were written back, a clean texture loop
      binds and uploads exactly what the loop that wrote them did. */
  lemma {:induction false} TexturePassReplay(s: Shader, dirty: bool, a: seq<(string, TexParameter)>,
                                             b: seq<(string, TexParameter)>, unit: nat)
    requires |a| == |b|
    requires forall i :: 0 <= i < |a| ==> b[i] == (a[i].0, StoredTexture(s, dirty, a[i].0, a[i].1))
    ensures Effects(TexturePass(s, false, b, unit)) == Effects(TexturePass(s, dirty, a, unit))
    decreases |a|
  {
    if |a| > 0 {
      var name := a[0].0;
      var x := a[0].1;
      var y := b[0].1;
      var next := if Binds(s, dirty, name, x) then unit + 1 else unit;
      RefreshedSettles(s, dirty, name, x.uniform);
      assert Binds(s, false, name, y) == Binds(s, dirty, name, x);
      TexturePassReplay(s, dirty, a[1..], b[1..], next);
      EffectsAppend(TextureStep(s, false, name, y, unit), TexturePass(s, false, b[1..], next));
      EffectsAppend(TextureStep(s, dirty, name, x, unit), TexturePass(s, dirty, a[1..], next));
      if x.texture.Some? {
        var u := Refreshed(s, dirty, name, x.uniform);
        var binding := if u.Error? then [] else [BindTex(x.texture.value, unit), Upload(u.location, Set1i(unit))];
        EffectsAppend(Lookups(false, name, y.uniform), binding);
        EffectsAppend(Lookups(dirty, name, x.uniform), binding);
        EffectsDrop(Lookups(false, name, y.uniform));
        EffectsDrop(Lookups(dirty, name, x.uniform));
      }
    }
  }

  /** Over parameters whose handles were written back, a clean local loop
      uploads exactly what the loop that wrote them did. */
  lemma {:induction false} LocalPassReplay(s: Shader, dirty: bool, a: seq<(string, Parameter)>,
                                           b: seq<(string, Parameter)>)
    requires |a| == |b|
    requires forall i :: 0 <= i < |a| ==> b[i] == (a[i].0, StoredParameter(s, dirty, a[i].0, a[i].1))
    ensures Effects(LocalPass(s, false, b)) == Effects(LocalPass(s, dirty, a))
    decreases |a|
  {
    if |a| > 0 {
      var name := a[0].0;
      var x := a[0].1;
      var y := b[0].1;
      var up := SetUniform(x.value, Refreshed(s, dirty, name, x.uniform));
      RefreshedSettles(s, dirty, name, x.uniform);
      assert SetUniform(y.value, Refreshed(s, false, name, y.uniform)) == up;
      LocalPassReplay(s, dirty, a[1..], b[1..]);
      assert LocalPass(s, false, b) == Lookups(false, name, y.uniform) + up + LocalPass(s, false, b[1..]);
      assert LocalPass(s, dirty, a) == Lookups(dirty, name, x.uniform) + up + LocalPass(s, dirty, a[1..]);
      EffectsAppend(Lookups(false, name, y.uniform) + up, LocalPass(s, false, b[1..]));
      EffectsAppend(Lookups(dirty, name, x.uniform) + up, LocalPass(s, dirty, a[1..]));
      EffectsAppend(Lookups(false, name, y.uniform), up);
      EffectsAppend(Lookups(dirty, name, x.uniform), up);
      EffectsDrop(Lookups(false, name, y.uniform));
      EffectsDrop(Lookups(dirty, name, x.uniform));
      EffectsKeep(up);
    }
  }

  /** The global loop depends on the local parameters only through their
      names. */
  lemma {:induction false} GlobalPassLocalNames(s: Shader, l1: Table<Parameter>, l2: Table<Parameter>,
                                                globals: Table<Parameter>, cache: map<string, Uniform>)
    requires Keys(l1) == Keys(l2)
    ensures GlobalPass(s, l1, globals, cache) == GlobalPass(s, l2, globals, cache)
    decreases |globals|
  {
    if |globals| > 0 {
      var name := globals[0].0;
      var c' := if Find(l1, name).Some? || name in cache || s.GetUniform(name).Error? then cache
                else cache[name := s.GetUniform(name)];
      GlobalPassLocalNames(s, l1, l2, globals[1..], cache);
      GlobalPassLocalNames(s, l1, l2, globals[1..], c');
    }
  }

  /** Run again over the cache `c1` it left, the global loop uploads exactly
      what it uploaded over `cache`. */
  predicate Replays(s: Shader, locals: Table<Parameter>, globals: Table<Parameter>, cache: map<string, Uniform>)
  {
    Effects(GlobalPass(s, locals, globals, GlobalPass(s, locals, globals, cache).cache).events)
    == Effects(GlobalPass(s, locals, globals, cache).events)
  }

  /** The replay step for a first name that was cached already. */
  lemma ReplayCached(s: Shader, locals: Table<Parameter>, globals: Table<Parameter>, cache: map<string, Uniform>)
    requires |globals| > 0 && Find(locals, globals[0].0).None? && globals[0].0 in cache
    requires Replays(s, locals, globals[1..], cache)
    ensures Replays(s, locals, globals, cache)
  {
    var name := globals[0].0;
    var p := globals[0].1;
    var tail: Table<Parameter> := globals[1..];
    var rest := GlobalPass(s, locals, tail, cache);
    var c1 := rest.cache;
    assert GlobalPass(s, locals, globals, cache) == GlobalResult(SetUniform(p.value, cache[name]) + rest.events, c1);
    assert name in c1 && c1[name] == cache[name];
    assert GlobalPass(s, locals, globals, c1).events
           == SetUniform(p.value, cache[name]) + GlobalPass(s, locals, tail, c1).events;
    EffectsAppend(SetUniform(p.value, cache[name]), rest.events);
    EffectsAppend(SetUniform(p.value, cache[name]), GlobalPass(s, locals, tail, c1).events);
  }

  /** The effects of one fresh lookup and its upload are the upload alone. */
  lemma FreshHeadEffects(name: string, v: Value, u: Uniform, rest: seq<Event>)
    ensures Effects([Resolve(name)] + SetUniform(v, u) + rest) == SetUniform(v, u) + Effects(rest)
  {
    EffectsAppend([Resolve(name)] + SetUniform(v, u), rest);
    EffectsAppend([Resolve(name)], SetUniform(v, u));
    EffectsDrop([Resolve(name)]);
    EffectsKeep(SetUniform(v, u));
  }

  /** The replay step for a first name that was not cached yet and that the
      shader resolves: the second run finds it in the cache. */
  lemma ReplayFreshLoc(s: Shader, locals: Table<Parameter>, globals: Table<Parameter>, cache: map<string, Uniform>)
    requires |globals| > 0 && Find(locals, globals[0].0).None? && globals[0].0 !in cache
    requires s.GetUniform(globals[0].0).Loc?
    requires Replays(s, locals, globals[1..], cache[globals[0].0 := s.GetUniform(globals[0].0)])
    ensures Replays(s, locals, globals, cache)
  {
    var name := globals[0].0;
    var v := globals[0].1.value;
    var tail: Table<Parameter> := globals[1..];
    var u := s.GetUniform(name);
    var rest := GlobalPass(s, locals, tail, cache[name := u]);
    var c1 := rest.cache;
    assert GlobalPass(s, locals, globals, cache).events == [Resolve(name)] + SetUniform(v, u) + rest.events;
    assert GlobalPass(s, locals, globals, cache).cache == c1;
    FreshHeadEffects(name, v, u, rest.events);
    assert name in c1 && c1[name] == u;
    assert GlobalPass(s, locals, globals, c1).events == SetUniform(v, u) + GlobalPass(s, locals, tail, c1).events;
    EffectsAppend(SetUniform(v, u), GlobalPass(s, locals, tail, c1).events);
    EffectsKeep(SetUniform(v, u));
  }

  /** The replay step for a first name that was not cached yet and that the
      shader does not resolve: the second run looks it up again. */
  lemma ReplayFreshError(s: Shader, locals: Table<Parameter>, globals: Table<Parameter>, cache: map<string, Uniform>)
    requires |globals| > 0 && Find(locals, globals[0].0).None? && globals[0].0 !in cache
    requires s.GetUniform(globals[0].0).Error?
    requires Replays(s, locals, globals[1..], cache)
    ensures Replays(s, locals, globals, cache)
  {
    var name := globals[0].0;
    var v := globals[0].1.value;
    var tail: Table<Parameter> := globals[1..];
    var u := s.GetUniform(name);
    var rest := GlobalPass(s, locals, tail, cache);
    var c1 := rest.cache;
    assert GlobalPass(s, locals, globals, cache).events == [Resolve(name)] + SetUniform(v, u) + rest.events;
    assert GlobalPass(s, locals, globals, cache).cache == c1;
    FreshHeadEffects(name, v, u, rest.events);
    KeysCons(globals);
    HeadBelowTail(globals);
    LessIrreflexive(name);
    assert name !in Keys(tail);
    assert name !in c1;
    assert GlobalPass(s, locals, globals, c1).events == [Resolve(name)] + SetUniform(v, u) + GlobalPass(s, locals, tail, c1).events;
    FreshHeadEffects(name, v, u, GlobalPass(s, locals, tail, c1).events);
  }

  /** Run again over the cache it left, the global loop uploads exactly what
      it uploaded the first time. */
  lemma {:induction false} GlobalPassReplay(s: Shader, locals: Table<Parameter>, globals: Table<Parameter>,
                                            cache: map<string, Uniform>)
    ensures Replays(s, locals, globals, cache)
    decreases |globals|
  {
    if |globals| > 0 {
      var name := globals[0].0;
      if Find(locals, name).Some? {
        GlobalPassReplay(s, locals, globals[1..], cache);
      } else if name in cache {
        GlobalPassReplay(s, locals, globals[1..], cache);
        ReplayCached(s, locals, globals, cache);
      } else {
        var u := s.GetUniform(name);
        if u.Loc? {
          GlobalPassReplay(s, locals, globals[1..], cache[name := u]);
          ReplayFreshLoc(s, locals, globals, cache);
        } else {
          GlobalPassReplay(s, locals, globals[1..], cache);
          ReplayFreshError(s, locals, globals, cache);
        }
      }
    }
  }

  /** Corrected: the second frame binds every texture unit and uploads
      every value exactly as the first did, in the same order. */
  lemma CachedSecondFrameEffects(m: Material, global: Material, cache: map<string, Uniform>)
    requires m.shader.Some?
    ensures var r1 := UseCaching(m, global, cache);
            Effects(UseCaching(r1.material, global, r1.globalCache).events) == Effects(r1.events)
  {
    var s := m.shader.value;
    var dirty := m.needsUniformUpdates;
    var r1 := UseCaching(m, global, cache);
    var m1 := r1.material;
    UseCachingState(m, global, cache);
    RefreshKeepsKeys(s, dirty, m.parameters);
    var t1 := TexturePass(s, dirty, m.textures, 0);
    var g1 := GlobalPass(s, m.parameters, global.parameters, cache);
    var l1 := LocalPass(s, dirty, m.parameters);
    var t2 := TexturePass(s, false, m1.textures, 0);
    var g2 := GlobalPass(s, m1.parameters, global.parameters, g1.cache);
    var l2 := LocalPass(s, false, m1.parameters);
    UseEvents(m, global, cache);
    UseEvents(m1, global, g1.cache);
    TexturePassReplay(s, dirty, m.textures, m1.textures, 0);
    LocalPassReplay(s, dirty, m.parameters, m1.parameters);
    GlobalPassLocalNames(s, m1.parameters, m.parameters, global.parameters, g1.cache);
    GlobalPassReplay(s, m.parameters, global.parameters, cache);
    EffectsDrop([BindShader(s.id)]);
    EffectsAppend(g1.events, l1);
    EffectsAppend(t1, g1.events + l1);
    EffectsAppend([BindShader(s.id)], t1 + (g1.events + l1));
    EffectsAppend(g2.events, l2);
    EffectsAppend(t2, g2.events + l2);
    EffectsAppend([BindShader(s.id)], t2 + (g2.events + l2));
  }

  /** Corrected: once a frame has written its handles back, the next frame
      of the unchanged material leaves material and global cache as they are,
      looks up only names the shader does not resolve, and binds and uploads
      exactly what the first frame did. */
  lemma CachedSecondFrameSettles(m: Material, global: Material, cache: map<string, Uniform>)
    requires m.shader.Some?
    ensures var r1 := UseCaching(m, global, cache);
            var r2 := UseCaching(r1.material, global, r1.globalCache);
            && r2.material == r1.material
            && r2.globalCache == r1.globalCache
            && (forall e :: e in r2.events && e.Resolve? ==> m.shader.value.GetUniform(e.name).Error?)
            && Effects(r2.events) == Effects(r1.events)
  {
    CachedSecondFrameKeepsState(m, global, cache);
    CachedSecondFrameLookups(m, global, cache);
    CachedSecondFrameEffects(m, global, cache);
  }

  /** Corrected, on the example: the second frame does not look "P" up. */
  lemma CachedSecondFrameSkipsLookup()
    ensures var r1 := UseCaching(ExampleMaterial(), NewMaterial(), map[]);
            Resolve("P") !in UseCaching(r1.material, NewMaterial(), r1.globalCache).events
  {
    CachedSecondFrameSettles(ExampleMaterial(), NewMaterial(), map[]);
    assert ExampleShader().GetUniform("P").Loc?;
  }
}

=== FILE: gpu.dfy ===
/** The GPU side of the engine, reduced to what the material code can
    observe: uniform handles, shaders as name resolvers, textures as
    identities, and every call into the graphics API as an event of a trace. */
module Gpu {

  /** A uniform handle; a default-constructed handle is in the error state. */
  datatype Uniform = Error | Loc(location: nat)

  /** A compiled program: its identity and the locations of its active
      uniforms. */
  datatype Shader = Shader(id: nat, active: map<string, nat>)
  {
    /** Shader::getUniform: the handle of an active uniform, an error handle
        for any other name. */
    function GetUniform(name: string): (u: Uniform)
      ensures u.Loc? <==> name in active
      ensures u.Loc? ==> u.location == active[name]
    {
      if name in active then Loc(active[name]) else Error
    }
  }

  datatype Texture = Texture(id: nat)

  /** The 32-bit pattern of a float; no float arithmetic is modelled. */
  type FloatBits = b: int | 0 <= b < 0x1_0000_0000

  datatype FVec2 = FVec2(x: FloatBits, y: FloatBits)
  datatype FVec3 = FVec3(x: FloatBits, y: FloatBits, z: FloatBits)
  datatype FVec4 = FVec4(x: FloatBits, y: FloatBits, z: FloatBits, w: FloatBits)

  /** A 4x4 matrix, sixteen floats in column order. */
  type FMat4 = s: seq<FloatBits> | |s| == 16 witness [0, 0, 0, 0, 0, 0, 0, 0, 0, 0, 0, 0, 0, 0, 0, 0]

  /** The typed upload calls of a uniform handle. */
  datatype Call =
    | Set1i(i: int)
    | Set1ui(u: nat)
    | Set1f(f: FloatBits)
    | SetVec2(v2: FVec2)
    | SetVec3(v3: FVec3)
    | SetVec4(v4: FVec4)
    | SetMatrix4(m4: FMat4)

  /** One call into the graphics API. */
  datatype Event =
    | BindShader(shader: nat)
    | Resolve(name: string)
    | BindTex(texture: Texture, unit: nat)
    | Upload(location: nat, call: Call)
}

=== FILE: material.dfy ===
/** Material: a type name, an optional shader, the texture bindings and the
    parameters keyed by uniform name, and the needsUniformUpdates dirty flag;
    with its constructors and mutators. */
module Materials {
  import opened Wrappers
  import opened OrderedMap
  import opened Gpu
  import opened Parameters

  /** MaterialTexParameter: a possibly-null texture and its cached handle. */
  datatype TexParameter = TexParameter(texture: Option<Texture>, uniform: Uniform)

  datatype Material = Material(
    typeName: string,
    shader: Option<Shader>,
    textures: Table<TexParameter>,
    parameters: Table<Parameter>,
    needsUniformUpdates: bool)

  /** Every handle a material stores is in the error state.  Nothing in the
      engine writes a resolved handle back into a material, so every material
      the operations below produce keeps this property. */
  predicate ColdCaches(m: Material)
  {
    && (forall e :: e in m.textures ==> e.1.uniform.Error?)
    && (forall e :: e in m.parameters ==> e.1.uniform.Error?)
  }

  /** The default constructor: no shader, no entries, marked for update. */
  function NewMaterial(): (r: Material)
    ensures r.shader.None? && Keys(r.textures) == {} && Keys(r.parameters) == {}
    ensures r.needsUniformUpdates
    ensures ColdCaches(r)
  {
    Material("", None, [], [], true)
  }

  /** The copy constructor: every field of `other`, marked for update. */
  function CopyOf(other: Material): (r: Material)
    ensures r.typeName == other.typeName && r.shader == other.shader
    ensures r.textures == other.textures && r.parameters == other.parameters
    ensures r.needsUniformUpdates
    ensures ColdCaches(other) ==> ColdCaches(r)
  {
    other.(needsUniformUpdates := true)
  }

  /** Copy assignment: `self` becomes a copy of `other`, marked for update;
      nothing of its former state survives. */
  function Assign(self: Material, other: Material): (r: Material)
    ensures r == CopyOf(other)
    ensures r.needsUniformUpdates
  {
    Material(other.typeName, other.shader, other.textures, other.parameters, true)
  }

  function SetTypeName(m: Material, name: string): (r: Material)
    ensures r.typeName == name
    ensures r == m.(typeName := name)
  {
    Material(name, m.shader, m.textures, m.parameters, m.needsUniformUpdates)
  }

  /** Replacing the shader (possibly by null) marks the material for update. */
  function SetShader(m: Material, s: Option<Shader>): (r: Material)
    ensures r.shader == s && r.needsUniformUpdates
    ensures r.typeName == m.typeName && r.textures == m.textures && r.parameters == m.parameters
  {
    Material(m.typeName, s, m.textures, m.parameters, true)
  }

  /** A fresh binding for `tex` (error handle) under `name`. */
  function SetTexture(m: Material, name: string, tex: Option<Texture>): (r: Material)
    ensures Find(r.textures, name) == Some(TexParameter(tex, Error))
    ensures forall n :: n != name ==> Find(r.textures, n) == Find(m.textures, n)
    ensures Keys(r.textures) == Keys(m.textures) + {name}
    ensures r == m.(textures := r.textures)
    ensures ColdCaches(m) ==> ColdCaches(r)
  {
    FindInsertAll(m.textures, name, TexParameter(tex, Error));
    m.(textures := Insert(m.textures, name, TexParameter(tex, Error)))
  }

  function RemoveTexture(m: Material, name: string): (r: Material)
    ensures Find(r.textures, name) == None
    ensures forall n :: n != name ==> Find(r.textures, n) == Find(m.textures, n)
    ensures name !in Keys(m.textures) ==> r == m
    ensures r == m.(textures := r.textures)
    ensures ColdCaches(m) ==> ColdCaches(r)
  {
    if name !in Keys(m.textures) then EraseAbsent(m.textures, name); m
    else m.(textures := Erase(m.textures, name))
  }

  /** The texture bound under `name`; None both for an absent name and for a
      binding that holds a null texture. */
  function GetTexture(m: Material, name: string): (r: Option<Texture>)
    ensures r.Some? ==> exists u :: (name, TexParameter(r, u)) in m.textures
    ensures forall b :: (name, b) in m.textures ==> r == b.texture
    ensures name !in Keys(m.textures) ==> r.None?
  {
    forall b | (name, b) in m.textures ensures TextureIn(m.textures, name) == b.texture {
      var i :| 0 <= i < |m.textures| && m.textures[i] == (name, b);
      FindEntry(m.textures, i);
    }
    TextureIn(m.textures, name)
  }

  function TextureIn(t: Table<TexParameter>, name: string): Option<Texture>
  {
    match Find(t, name)
    case None => None
    case Some(b) => b.texture
  }

  /** The setParameter overloads: the value under `name` replaced, with a
      fresh (error) handle. */
  function SetParameter(m: Material, name: string, v: SetValue): (r: Material)
    ensures Find(r.parameters, name) == Some(Parameter(v, Error))
    ensures forall n :: n != name ==> Find(r.parameters, n) == Find(m.parameters, n)
    ensures Keys(r.parameters) == Keys(m.parameters) + {name}
    ensures r == m.(parameters := r.parameters)
    ensures ColdCaches(m) ==> ColdCaches(r)
  {
    FindInsertAll(m.parameters, name, Parameter(v, Error));
    m.(parameters := Insert(m.parameters, name, Parameter(v, Error)))
  }

  function RemoveParameter(m: Material, name: string): (r: Material)
    ensures Find(r.parameters, name) == None
    ensures forall n :: n != name ==> Find(r.parameters, n) == Find(m.parameters, n)
    ensures name !in Keys(m.parameters) ==> r == m
    ensures r == m.(parameters := r.parameters)
    ensures ColdCaches(m) ==> ColdCaches(r)
  {
    if name !in Keys(m.parameters) then EraseAbsent(m.parameters, name); m
    else m.(parameters := Erase(m.parameters, name))
  }

  /** The parameter stored under `name`, or the Null sentinel. */
  function GetParameter(m: Material, name: string): (r: Parameter)
    ensures name in Keys(m.parameters) ==> (name, r) in m.parameters
    ensures name !in Keys(m.parameters) ==> r == NullParameter
  {
    ParameterIn(m.parameters, name)
  }

  function ParameterIn(t: Table<Parameter>, name: string): Parameter
  {
    match Find(t, name)
    case None => NullParameter
    case Some(p) => p
  }

  function ResetUniformCache(m: Material): (r: Material)
    ensures r.needsUniformUpdates
    ensures r == m.(needsUniformUpdates := true)
  {
    Material(m.typeName, m.shader, m.textures, m.parameters, true)
  }

  /** Where the gap-filling merge takes a texture binding for `n` from:
      `theirs`' texture in a fresh binding when ours holds no texture under
      `n` and theirs has an entry, our own entry otherwise. */
  function FilledTexture(ours: Table<TexParameter>, theirs: Table<TexParameter>, n: string): Option<TexParameter>
  {
    match Find(theirs, n)
    case Some(b) =>
      if TextureIn(ours, n).None? then Some(TexParameter(b.texture, Error)) else Find(ours, n)
    case None => Find(ours, n)
  }

  /** Where the gap-filling merge takes the parameter for `n` from: theirs,
      whole, when ours is of the Null kind there and theirs has an entry; our
      own entry otherwise. */
  function FilledParameter(ours: Table<Parameter>, theirs: Table<Parameter>, n: string): Option<Parameter>
  {
    match Find(theirs, n)
    case Some(p) => if ParameterIn(ours, n).value.NullValue? then Some(p) else Find(ours, n)
    case None => Find(ours, n)
  }

  /** The texture loop of copyFrom, over `theirs` in key order. */
  function CopyTextures(ours: Table<TexParameter>, theirs: Table<TexParameter>): (r: Table<TexParameter>)
    ensures Keys(r) == Keys(ours) + Keys(theirs)
    ensures (forall e :: e in ours ==> e.1.uniform.Error?) ==> (forall e :: e in r ==> e.1.uniform.Error?)
    decreases |theirs|
  {
    if |theirs| == 0 then ours
    else
      var name := theirs[0].0;
      var next := if TextureIn(ours, name).None? then Insert(ours, name, TexParameter(theirs[0].1.texture, Error)) else ours;
      KeysCons(theirs);
      CopyTextures(next, theirs[1..])
  }

  /** The texture loop fills exactly the gaps FilledTexture describes. */
  lemma {:induction false} CopyTexturesFills(ours: Table<TexParameter>, theirs: Table<TexParameter>, n: string)
    ensures Find(CopyTextures(ours, theirs), n) == FilledTexture(ours, theirs, n)
    decreases |theirs|
  {
    if |theirs| > 0 {
      var name := theirs[0].0;
      var b := TexParameter(theirs[0].1.texture, Error);
      var next := if TextureIn(ours, name).None? then Insert(ours, name, b) else ours;
      FindInsertAll(ours, name, b);
      CopyTexturesFills(next, theirs[1..], n);
      KeysCons(theirs);
      if n == name {
        HeadBelowTail(theirs);
        LessIrreflexive(name);
        assert n !in Keys(theirs[1..]);
        assert Find(theirs, n) == Some(theirs[0].1);
      } else {
        assert Find(theirs, n) == Find(theirs[1..], n);
        assert Find(next, n) == Find(ours, n);
      }
    }
  }

  /** The parameter loop of copyFrom, over `theirs` in key order. */
  function CopyParameters(ours: Table<Parameter>, theirs: Table<Parameter>): (r: Table<Parameter>)
    ensures Keys(r) == Keys(ours) + Keys(theirs)
    ensures (forall e :: e in ours ==> e.1.uniform.Error?) && (forall e :: e in theirs ==> e.1.uniform.Error?)
            ==> (forall e :: e in r ==> e.1.uniform.Error?)
    decreases |theirs|
  {
    if |theirs| == 0 then ours
    else
      var name := theirs[0].0;
      var next := if ParameterIn(ours, name).value.NullValue? then Insert(ours, name, theirs[0].1) else ours;
      KeysCons(theirs);
      CopyParameters(next, theirs[1..])
  }

  /** The parameter loop fills exactly the gaps FilledParameter describes. */
  lemma {:induction false} CopyParametersFills(ours: Table<Parameter>, theirs: Table<Parameter>, n: string)
    ensures Find(CopyParameters(ours, theirs), n) == FilledParameter(ours, theirs, n)
    decreases |theirs|
  {
    if |theirs| > 0 {
      var name := theirs[0].0;
      var next := if ParameterIn(ours, name).value.NullValue? then Insert(ours, name, theirs[0].1) else ours;
      FindInsertAll(ours, name, theirs[0].1);
      CopyParametersFills(next, theirs[1..], n);
      KeysCons(theirs);
      if n == name {
        HeadBelowTail(theirs);
        LessIrreflexive(name);
        assert n !in Keys(theirs[1..]);
        assert Find(theirs, n) == Some(theirs[0].1);
      } else {
        assert Find(theirs, n) == Find(theirs[1..], n);
        assert Find(next, n) == Find(ours, n);
      }
    }
  }

  /** copyFrom: fill the gaps of `m` from `other`, never overwriting. */
  function CopyFrom(m: Material, other: Material): (r: Material)
    ensures r.shader == if m.shader.Some? then m.shader else other.shader
    ensures forall n :: GetTexture(r, n) == if GetTexture(m, n).Some? then GetTexture(m, n) else GetTexture(other, n)
    ensures forall n :: GetParameter(r, n) ==
              if !GetParameter(m, n).value.NullValue? || n !in Keys(other.parameters) then GetParameter(m, n)
              else GetParameter(other, n)
    ensures forall n :: Find(r.textures, n) == FilledTexture(m.textures, other.textures, n)
    ensures forall n :: Find(r.parameters, n) == FilledParameter(m.parameters, other.parameters, n)
    ensures Keys(r.textures) == Keys(m.textures) + Keys(other.textures)
    ensures Keys(r.parameters) == Keys(m.parameters) + Keys(other.parameters)
    ensures r.typeName == m.typeName && r.needsUniformUpdates == m.needsUniformUpdates
    ensures ColdCaches(m) && ColdCaches(other) ==> ColdCaches(r)
  {
    assert forall n :: Find(CopyTextures(m.textures, other.textures), n) == FilledTexture(m.textures, other.textures, n)
      by { forall n { CopyTexturesFills(m.textures, other.textures, n); } }
    assert forall n :: Find(CopyParameters(m.parameters, other.parameters), n)
                       == FilledParameter(m.parameters, other.parameters, n)
      by { forall n { CopyParametersFills(m.parameters, other.parameters, n); } }
    Material(m.typeName, if m.shader.None? then other.shader else m.shader,
             CopyTextures(m.textures, other.textures), CopyParameters(m.parameters, other.parameters),
             m.needsUniformUpdates)
  }

  /** setTempParameter: upload `v` under `name` for this draw only, through
      the handle stored for `name` or, when that is an error handle or the
      name is not stored, a freshly resolved one.  Nothing is stored. */
  function SetTempParameter(m: Material, name: string, v: Value): (r: seq<Event>)
    ensures m.shader.None? ==> r == []
    ensures forall e :: e in r ==> e == Resolve(name) || (e.Upload? && Carried(e.call) == v)
    ensures |r| <= 2 && forall i :: 0 < i < |r| ==> r[i].Upload?
    ensures m.shader.Some? && GetParameter(m, name).uniform.Loc? ==> r == SetUniform(v, GetParameter(m, name).uniform)
    ensures m.shader.Some? && GetParameter(m, name).uniform.Error? ==>
              r == [Resolve(name)] + SetUniform(v, m.shader.value.GetUniform(name))
    ensures m.shader.Some? && ColdCaches(m) ==>
              |r| >= 1 && r[0] == Resolve(name) && r[1..] == SetUniform(v, m.shader.value.GetUniform(name))
  {
    match m.shader
    case None => []
    case Some(s) =>
      var cached := ParameterIn(m.parameters, name).uniform;
      if cached.Error? then [Resolve(name)] + SetUniform(v, s.GetUniform(name))
      else SetUniform(v, cached)
  }

  /** getParameter as a map lookup with a sentinel: it yields what was last
      set under a name, the Null sentinel once the name is removed, and
      setting or removing one name leaves every other name as it was. */
  lemma GetParameterAfterUpdate(m: Material, name: string, v: SetValue, n: string)
    ensures GetParameter(SetParameter(m, name, v), name).value == v
    ensures GetParameter(RemoveParameter(m, name), name) == NullParameter
    ensures n != name ==> GetParameter(SetParameter(m, name, v), n) == GetParameter(m, n)
    ensures n != name ==> GetParameter(RemoveParameter(m, name), n) == GetParameter(m, n)
    ensures GetParameter(NewMaterial(), n) == NullParameter
  {
  }

  /** The dirty flag is raised by construction, copying, assignment, a new
      shader and resetUniformCache, and no other mutator touches it. */
  lemma DirtyFlagLifecycle(m: Material, other: Material, name: string, s: Option<Shader>,
                           tex: Option<Texture>, v: SetValue)
    ensures NewMaterial().needsUniformUpdates
    ensures CopyOf(other).needsUniformUpdates && Assign(m, other).needsUniformUpdates
    ensures SetShader(m, s).needsUniformUpdates && ResetUniformCache(m).needsUniformUpdates
    ensures SetTexture(m, name, tex).needsUniformUpdates == m.needsUniformUpdates
    ensures RemoveTexture(m, name).needsUniformUpdates == m.needsUniformUpdates
    ensures SetParameter(m, name, v).needsUniformUpdates == m.needsUniformUpdates
    ensures RemoveParameter(m, name).needsUniformUpdates == m.needsUniformUpdates
    ensures CopyFrom(m, other).needsUniformUpdates == m.needsUniformUpdates
    ensures SetTypeName(m, name).needsUniformUpdates == m.needsUniformUpdates
  {
  }

  /** The merge never overwrites: given M with P1 = 5 and M2 with P1 = 9 and
      P2 = 2, merging M2 into M keeps P1 = 5 and adds P2 = 2. */
  lemma CopyFromKeepsExisting()
    ensures var m := SetParameter(NewMaterial(), "P1", IntValue(5));
            var m2 := SetParameter(SetParameter(NewMaterial(), "P1", IntValue(9)), "P2", IntValue(2));
            var r := CopyFrom(m, m2);
            GetParameter(r, "P1").value == IntValue(5) && GetParameter(r, "P2").value == IntValue(2)
  {
    var m := SetParameter(NewMaterial(), "P1", IntValue(5));
    var m2 := SetParameter(SetParameter(NewMaterial(), "P1", IntValue(9)), "P2", IntValue(2));
    assert "P2" != "P1";
    assert "P2" !in Keys(m.parameters);
  }
}

=== FILE: ordered_map.dfy ===
/** A model of std::map<std::string, V>, the container the engine keeps a
    material's texture bindings and parameters in.  A table is a sequence of
    (name, value) entries whose names ascend strictly, so walking the sequence
    front to back is std::map's iteration order and every name occurs once. */
module OrderedMap {
  import opened Wrappers

  /** std::string's operator<: lexicographic by character code, with a proper
      prefix ordered before its extensions. */
  predicate Less(a: string, b: string)
  {
    if |a| == 0 then |b| > 0
    else |b| > 0 && (a[0] < b[0] || (a[0] == b[0] && Less(a[1..], b[1..])))
  }

  lemma {:induction false} LessIrreflexive(a: string)
    ensures !Less(a, a)
  {
    if |a| > 0 {
      LessIrreflexive(a[1..]);
    }
  }

  lemma {:induction false} LessTransitive(a: string, b: string, c: string)
    requires Less(a, b) && Less(b, c)
    ensures Less(a, c)
  {
    if |a| > 0 && a[0] == b[0] && b[0] == c[0] {
      LessTransitive(a[1..], b[1..], c[1..]);
    }
  }

  lemma {:induction false} LessTrichotomy(a: string, b: string)
    ensures a == b || Less(a, b) || Less(b, a)
  {
    if |a| > 0 && |b| > 0 && a[0] == b[0] {
      LessTrichotomy(a[1..], b[1..]);
      if a[1..] == b[1..] {
        assert a == [a[0]] + a[1..] && b == [b[0]] + b[1..];
      }
    }
  }

  /** Names ascend strictly along the sequence. */
  predicate Sorted<V>(t: seq<(string, V)>)
  {
    forall i, j :: 0 <= i < j < |t| ==> Less(t[i].0, t[j].0)
  }

  type Table<V> = t: seq<(string, V)> | Sorted(t) witness []

  /** The names a table holds. */
  function Keys<V>(t: seq<(string, V)>): set<string>
  {
    set i | 0 <= i < |t| :: t[i].0
  }

  /** std::map::find: the value stored under `k`, or None for end(). */
  function Find<V>(t: seq<(string, V)>, k: string): (r: Option<V>)
    ensures r.Some? <==> k in Keys(t)
    ensures r.Some? ==> (k, r.value) in t
    decreases |t|
  {
    if |t| == 0 then None
    else if t[0].0 == k then Some(t[0].1)
    else
      KeysCons(t);
      Find(t[1..], k)
  }

  lemma KeysCons<V>(t: seq<(string, V)>)
    requires |t| > 0
    ensures Keys(t) == {t[0].0} + Keys(t[1..])
  {
    forall x | x in Keys(t) ensures x in {t[0].0} + Keys(t[1..]) {
      var i :| 0 <= i < |t| && t[i].0 == x;
      if i > 0 { assert t[1..][i - 1].0 == x; }
    }
  }

  /** A name strictly below the first name of a table is below all of them. */
  lemma BelowAll<V>(k: string, t: Table<V>)
    requires |t| > 0 && Less(k, t[0].0)
    ensures forall key :: key in Keys(t) ==> Less(k, key)
  {
    forall key | key in Keys(t) ensures Less(k, key) {
      var j :| 0 <= j < |t| && t[j].0 == key;
      if j > 0 { LessTransitive(k, t[0].0, t[j].0); }
    }
  }

  /** The first name of a table is below every other name in it. */
  lemma HeadBelowTail<V>(t: Table<V>)
    requires |t| > 0
    ensures forall key :: key in Keys(t[1..]) ==> Less(t[0].0, key)
  {
    forall key | key in Keys(t[1..]) ensures Less(t[0].0, key) {
      var i :| 0 <= i < |t[1..]| && t[1..][i].0 == key;
      assert t[i + 1].0 == key;
    }
  }

  /** An entry below every name of a table can be put in front of it. */
  lemma ConsTable<V>(x: (string, V), rest: Table<V>)
    requires forall key :: key in Keys(rest) ==> Less(x.0, key)
    ensures Sorted([x] + rest)
    ensures Keys([x] + rest) == {x.0} + Keys(rest)
  {
    var r := [x] + rest;
    forall i, j | 0 <= i < j < |r| ensures Less(r[i].0, r[j].0) {
      assert r[j] == rest[j - 1];
      assert rest[j - 1].0 in Keys(rest);
      if i > 0 { assert r[i] == rest[i - 1]; }
    }
    KeysCons(r);
    assert r[1..] == rest;
  }

  /** Every entry of a table is what Find returns for its name. */
  lemma {:induction false} FindEntry<V>(t: Table<V>, i: int)
    requires 0 <= i < |t|
    ensures Find(t, t[i].0) == Some(t[i].1)
  {
    if i > 0 {
      LessIrreflexive(t[0].0);
      assert t[0].0 != t[i].0;
      FindEntry(t[1..], i - 1);
    }
  }

  /** std::map::operator[] assignment: replace the value under `k`, or add it
      in its ordered place. */
  function Insert<V>(t: Table<V>, k: string, v: V): (r: Table<V>)
    ensures Keys(r) == Keys(t) + {k}
    ensures forall e :: e in r ==> e == (k, v) || e in t
    decreases |t|
  {
    if |t| == 0 then
      ConsTable((k, v), []);
      [(k, v)]
    else if t[0].0 == k then
      HeadBelowTail(t);
      ConsTable((k, v), t[1..]);
      KeysCons(t);
      [(k, v)] + t[1..]
    else if Less(k, t[0].0) then
      BelowAll(k, t);
      ConsTable((k, v), t);
      [(k, v)] + t
    else
      LessTrichotomy(k, t[0].0);
      var rest := Insert(t[1..], k, v);
      HeadBelowTail(t);
      ConsTable(t[0], rest);
      [t[0]] + rest
  }

  /** After an insertion the name finds the new value and every other name
      finds what it found before. */
  lemma {:induction false} FindInsert<V>(t: Table<V>, k: string, v: V, n: string)
    ensures Find(Insert(t, k, v), n) == if n == k then Some(v) else Find(t, n)
    decreases |t|
  {
    if |t| > 0 && t[0].0 != k && !Less(k, t[0].0) {
      FindInsert(t[1..], k, v, n);
    } else if |t| > 0 && t[0].0 == k && n != k {
      assert Find(t, n) == Find(t[1..], n);
    }
  }

  lemma FindInsertAll<V>(t: Table<V>, k: string, v: V)
    ensures Find(Insert(t, k, v), k) == Some(v)
    ensures forall n :: n != k ==> Find(Insert(t, k, v), n) == Find(t, n)
  {
    FindInsert(t, k, v, k);
    forall n | n != k ensures Find(Insert(t, k, v), n) == Find(t, n) {
      FindInsert(t, k, v, n);
    }
  }

  /** std::map::erase by name; an absent name leaves the table as it was. */
  function Erase<V>(t: Table<V>, k: string): (r: Table<V>)
    ensures Keys(r) == Keys(t) - {k}
    ensures Find(r, k) == None
    ensures forall k' :: k' != k ==> Find(r, k') == Find(t, k')
    ensures forall e :: e in r ==> e in t
    decreases |t|
  {
    if |t| == 0 then t
    else if t[0].0 == k then
      LessIrreflexive(k);
      assert forall j :: 0 < j < |t| ==> t[j] == t[1..][j - 1];
      t[1..]
    else
      var rest := Erase(t[1..], k);
      var r: seq<(string, V)> := [t[0]] + rest;
      assert Sorted(r) by {
        forall i, j | 0 <= i < j < |r| ensures Less(r[i].0, r[j].0) {
          assert r[j] == rest[j - 1];
          if i > 0 {
            assert r[i] == rest[i - 1];
          } else {
            assert rest[j - 1] in t[1..];
            var jj :| 0 <= jj < |t[1..]| && t[1..][jj] == r[j];
            assert t[jj + 1] == r[j];
          }
        }
      }
      KeysCons(t);
      KeysCons(r);
      assert r[1..] == rest;
      r
  }

  /** Erasing a name the table does not hold changes nothing. */
  lemma {:induction false} EraseAbsent<V>(t: Table<V>, k: string)
    requires k !in Keys(t)
    ensures Erase(t, k) == t
  {
    if |t| > 0 {
      assert t[0].0 in Keys(t);
      assert Keys(t[1..]) <= Keys(t) by {
        forall x | x in Keys(t[1..]) ensures x in Keys(t) {
          var i :| 0 <= i < |t[1..]| && t[1..][i].0 == x;
          assert t[i + 1].0 == x;
        }
      }
      EraseAbsent(t[1..], k);
      assert t == [t[0]] + t[1..];
    }
  }
}

=== FILE: parameter.dfy ===
/** MaterialParameter: a tagged value a material stores under a uniform name,
    with the handle it caches, and its upload dispatch. */
module Parameters {
  import opened Gpu

  /** The kind tag and its payload; NullValue is the "absent" kind. */
  datatype Value =
    | NullValue
    | IntValue(i: int)
    | UIntValue(u: nat)
    | FloatValue(f: FloatBits)
    | Vec2Value(v2: FVec2)
    | Vec3Value(v3: FVec3)
    | Vec4Value(v4: FVec4)
    | Mat4Value(m4: FMat4)

  /** The kinds the setParameter overloads can store. */
  type SetValue = v: Value | !v.NullValue? witness IntValue(0)

  /** A stored parameter: its value and the uniform handle cached for it. */
  datatype Parameter = Parameter(value: Value, uniform: Uniform)

  /** MaterialParameter::NullParameter, what a lookup of an absent name yields:
      the default-constructed parameter, Null kind and an error handle. */
  const NullParameter := Parameter(NullValue, Error)

  /** The upload call that carries a value of each non-null kind. */
  function CallFor(v: SetValue): (c: Call)
  {
    match v
    case IntValue(i) => Set1i(i)
    case UIntValue(u) => Set1ui(u)
    case FloatValue(f) => Set1f(f)
    case Vec2Value(v2) => SetVec2(v2)
    case Vec3Value(v3) => SetVec3(v3)
    case Vec4Value(v4) => SetVec4(v4)
    case Mat4Value(m4) => SetMatrix4(m4)
  }

  /** The value an upload call delivers to the shader. */
  function Carried(c: Call): (v: SetValue)
  {
    match c
    case Set1i(i) => IntValue(i)
    case Set1ui(u) => UIntValue(u)
    case Set1f(f) => FloatValue(f)
    case SetVec2(v2) => Vec2Value(v2)
    case SetVec3(v3) => Vec3Value(v3)
    case SetVec4(v4) => Vec4Value(v4)
    case SetMatrix4(m4) => Mat4Value(m4)
  }

  /** The kind-matching call delivers exactly the value, and every call is
      the kind-matching call of what it delivers. */
  lemma CallRoundTrip(v: SetValue, c: Call)
    ensures Carried(CallFor(v)) == v
    ensures CallFor(Carried(c)) == c
  {
  }

  /** MaterialParameter::setUniform: the uploads of value `v` through handle
      `u`.  Nothing is uploaded through an error handle or for the Null kind;
      otherwise exactly one upload, at the handle's location, of `v` itself. */
  function SetUniform(v: Value, u: Uniform): (events: seq<Event>)
    ensures |events| <= 1
    ensures |events| == 0 <==> u.Error? || v.NullValue?
    ensures forall e :: e in events ==>
              e.Upload? && u.Loc? && e.location == u.location && Carried(e.call) == v
  {
    if u.Error? || v.NullValue? then [] else [Upload(u.location, CallFor(v))]
  }
}

=== FILE: wrappers.dfy ===
/** The optional value used for the engine's nullable shared pointers
    (a shader or texture that may be null) and for map lookups. */
module Wrappers {

  datatype Option<+T> = None | Some(value: T)
}
